=== FILE: README.md ===
# Pie chart geometry and bookkeeping

This project models the pie and donut chart of android-charts in Dafny. It
covers the arithmetic and bookkeeping behind the chart view:

- turning data values into slice boundaries (`normalize`, `partialSums`,
  `withSize`);
- the array tween the animations run through (`FloatArrayEvaluator`);
- the state transitions of `PieChart`:
  - the collapsing boundary setter;
  - the start and target arrays of a data-set change;
  - the pointer hit test;
  - the one-hot selection target;
  - the synchronous listener calls;
- the list-backed data-set adapter;
- what the slice renderers compute for each slice:
  - colour, shadow and radii;
  - ring thickness and radial shift;
  - the label hand-off;
- label placement and label padding;
- colour mixing;
- degree/radian conversion;
- the donut-slice path of the earliest revision;
- the in-situ rectangle providers;
- the styled-attribute helpers.

Design choices:

- Every `Float` is a `real`.
- Kotlin's `toInt` (toward zero) and `roundToInt` (half up) are written out, together with their saturation at the 32-bit bounds (`Numeric`).
- `cos` and `sin` are function parameters.
- Text measurement is an input: each label carries the width and height the platform measured for it.
- A call that throws in the source returns `None` in the model, or is excluded by a precondition that no caller in the source violates:
  - `None`: an empty palette, a missing list entry, `last()` of nothing;
  - preconditions: `Boundaries.Collapse` and `PieChart.SetBoundaries` take a non-empty array, because the setter calls `first()`. `PieChart.SelectionAnimation`, and the selection and touch members built on it, take a chart with at least one boundary. The boundaries start as `[0]` (`PieChart.Initial`), and every assignment keeps them non-empty. `Collections.WithSize` takes a `nat` size, so the negative count for which `take` throws cannot be passed.
- A zero donut radius does not throw: the float division in `anglePadding` gives a non-finite angle. `DonutPath.DonutSlice` and `DonutPath.DonutSliceAsWritten` return `None` there, as "## Left out" explains.

The repository holds up to three revisions of the same logic. The `charts/…` revision is the canonical one. A member covers every identical copy, and the differing revisions get members of their own:

| module | copies it covers |
|---|---|
| `Collections` | `charts/core/…/Collections.kt`, `core/…/Collections.kt`, `piechart/…/common/Collections.kt`, and the `partialSums` in `piechart/…/common/Math.kt` (all identical) |
| `ArrayTween` | `core/…/FloatArrayEvaluator.kt` and `piechart/…/common/FloatArrayEvaluator.kt` |
| `Boundaries` | the `dataPointsAngles`/`dataPoints` setters of all three `PieChart.kt` files |
| `PieChart` | all three `PieChart.kt` files. The data-set change is the same in all three. `Middle…` members cover the middle revision's different selection handling. `EarliestTouch` covers the earliest revision's hit test, which has no stored index and no listeners |
| `Adapter` | all three `FloatListPieChartAdapter.kt` files. The earliest has no `getLabel` |
| `Labels` | both `SimplePieChartLabelsUI.kt` files and `SimplePieChartLabelUIDelegate.kt`. Their threshold and placement arithmetic is identical. A missing label and the canonical revision's transformation become the `Option` label and the `translation` argument |
| `SliceRenderers` | both `BasePieChartUI.kt` files and the three `DonutPieChartUI.kt` files (canonical, `Middle…`, `Earliest…`). It also covers the middle `SimplePieChartUI.kt` (`MiddleDrawWedge`) |
| `Angles` | `piechart/…/common/graphics/Math.kt` (`RadToDeg`, `DegToRad`) and the swapped copy in `piechart/…/common/Math.kt` (`CommonRadToDeg`, `CommonDegToRad`) |
| `DonutPath`, `Rects`, `Colors` | `PathProvider.kt`, the two in-situ providers and `Colors.kt` |
| `TypedArrays` | both `TypedArray.kt` files. Their `findIndexWithValue` and `getInterpolator` are the same |

An animation is represented by its start and end arrays. A frame is one assignment of `Evaluate(fraction, start, end)`. The fractions the platform animator picks are not modelled.

## Model

| member | source | states |
|---|---|---|
| Angles.RadToDeg | piechart/src/main/java/it/czerwinski/android/charts/common/graphics/Math.kt:8 | the result is the same fraction of 360 degrees as the argument is of 2π |
| Angles.DegToRad | piechart/src/main/java/it/czerwinski/android/charts/common/graphics/Math.kt:9 | the result is the same fraction of 2π as the argument is of 360 degrees |
| Angles.RadDegRoundTrip | piechart/src/main/java/it/czerwinski/android/charts/common/graphics/Math.kt:8-9 | the two conversions are inverse to each other in both orders |
| Angles.FullTurn | piechart/src/main/java/it/czerwinski/android/charts/common/graphics/Math.kt:3-9 | 2π radians convert to FULL_ANGLE (360) degrees and back |
| Angles.CommonRadToDeg | piechart/src/main/java/it/czerwinski/android/charts/common/Math.kt:8 | the `common` radToDeg scales by 2π/360, so it equals the graphics degToRad |
| Angles.CommonDegToRad | piechart/src/main/java/it/czerwinski/android/charts/common/Math.kt:9 | the `common` degToRad equals the graphics radToDeg |
| Angles.CommonRoundTrip | piechart/src/main/java/it/czerwinski/android/charts/common/Math.kt:8-9 | despite the swapped names, the two `common` functions are still inverses |
| Angles.CommonRadToDegIsNotRadToDeg | piechart/src/main/java/it/czerwinski/android/charts/common/Math.kt:8 | the `common` radToDeg disagrees with the graphics one on every non-zero angle |
| Numeric.Truncate | charts/piechart/src/main/java/adapters/FloatListPieChartAdapter.kt:71 | rounding toward zero: the integer of the same sign whose distance from x is below 1 and which is no farther from 0 |
| Numeric.ToInt | charts/piechart/src/main/java/adapters/FloatListPieChartAdapter.kt:71 | `toInt` gives a 32-bit value and agrees with truncation whenever that fits |
| Numeric.RoundToInt | piechart/src/main/java/it/czerwinski/android/charts/common/graphics/Colors.kt:15 | `roundToInt` gives a 32-bit value within half a unit of x, halves rounding up, for x in range |
| Numeric.ConversionsKeepIntegers | piechart/src/main/java/it/czerwinski/android/charts/common/graphics/InSituRectProvider.kt:21-24 | whole 32-bit numbers survive both conversions unchanged |
| Numeric.ConversionExamples | piechart/src/main/java/it/czerwinski/android/charts/common/graphics/Colors.kt:15 | 2.5 rounds to 3 and −2.5 to −2, while 2.9 and −2.9 truncate to 2 and −2 |
| Collections.Normalize | charts/core/src/main/java/Collections.kt:30-33 | keeps the length; for a positive sum each element is divided by the sum, otherwise the list comes back unchanged |
| Collections.NormalizeSumsToOne | charts/core/src/main/java/Collections.kt:30-33 | a list with positive sum normalizes to a list summing to exactly 1 |
| Collections.NormalizeNonNegative | charts/core/src/main/java/Collections.kt:30-33 | normalizing keeps non-negative values non-negative |
| Collections.PartialSums | charts/core/src/main/java/Collections.kt:41-44 | n+1 elements, starting at 0, each the previous plus the next input |
| Collections.PartialSumsArePrefixSums | charts/core/src/main/java/Collections.kt:41-44 | element i is the sum of the first i inputs |
| Collections.PartialSumsLastIsSum | charts/core/src/main/java/Collections.kt:41-44 | the last element is the sum of the input |
| Collections.PartialSumsNonDecreasing | charts/core/src/main/java/Collections.kt:41-44 | for non-negative inputs the running totals never decrease |
| Collections.BoundaryIsShare | charts/core/src/main/java/Collections.kt:30-44 | boundary i of a normalized positive-sum list is the sum of the first i values over the total |
| Collections.BoundariesEndAtOne | charts/core/src/main/java/Collections.kt:30-44 | the partial sums of a normalized list with positive sum end in exactly 1 |
| Collections.BoundariesOrdered | charts/core/src/main/java/Collections.kt:30-44 | the partial sums of normalized non-negative values are ordered |
| Collections.WithSize | charts/core/src/main/java/Collections.kt:60-63 | exactly `size` elements: the input's first ones in order, then copies of its last element, or of `valueIfEmpty` when it is empty |
| Collections.WithSizeSameLength | charts/core/src/main/java/Collections.kt:60-63 | resizing to the current length changes nothing |
| Collections.WithSizeIdempotent | charts/core/src/main/java/Collections.kt:60-63 | resizing twice to the same size is resizing once |
| Collections.WithSizeNonDecreasing | charts/core/src/main/java/Collections.kt:60-63 | resizing an ordered list keeps it ordered |
| Collections.NormalizeExamples | charts/core/src/main/java/Collections.kt:30-33 | [10,20,30,40] gives [0.1,0.2,0.3,0.4]; four ones give quarters; all zeros stay zeros |
| Collections.PartialSumsExamples | charts/core/src/main/java/Collections.kt:41-44 | [10,20,30,40] gives [0,10,30,60,100] and four ones give [0,1,2,3,4] |
| Collections.WithSizeExamples | charts/core/src/main/java/Collections.kt:46-63 | the documented cases: [1,2,3] at sizes 2 to 5, and [] at size 3 giving [17,17,17] |
| ArrayTween.Evaluate | core/src/main/java/FloatArrayEvaluator.kt:27-31 | the shorter length, no failure on a mismatch; element i is start + fraction·(end − start) |
| ArrayTween.EvaluateEndpoints | core/src/main/java/FloatArrayEvaluator.kt:29 | fraction 0 gives the start array and 1 the end array, for equal lengths |
| ArrayTween.EvaluateFixedElement | piechart/src/main/java/it/czerwinski/android/charts/common/FloatArrayEvaluator.kt:13 | an element with equal endpoints is constant for every fraction |
| ArrayTween.EvaluateBetween | core/src/main/java/FloatArrayEvaluator.kt:29 | for a fraction in [0, 1] each element lies between its endpoints |
| ArrayTween.EvaluateKeepsOrder | core/src/main/java/FloatArrayEvaluator.kt:27-31 | for a fraction in [0, 1], ordered start and end arrays give an ordered frame |
| ArrayTween.EvaluateExamples | core/src/main/java/FloatArrayEvaluator.kt:27-31 | [10,15,20]→[20,15,10] at 0, 1, 0.5, 0.25, and unclamped at 2 and −1 ([30,15,0] and [0,15,30]) |
| ArrayTween.EvaluateTruncates | core/src/main/java/FloatArrayEvaluator.kt:27 | arrays of lengths 3 and 1 give one element, without failing |
| Boundaries.Collapse | charts/piechart/src/main/java/PieChart.kt:147-156 | non-empty, at most as long, same first and last value, no two equal neighbours |
| Boundaries.CollapseFixesDistinct | charts/piechart/src/main/java/PieChart.kt:147-156 | an array without equal neighbours is stored unchanged |
| Boundaries.CollapseIdempotent | charts/piechart/src/main/java/PieChart.kt:147-156 | collapsing twice is collapsing once |
| Boundaries.CollapseIsSubsequence | charts/piechart/src/main/java/PieChart.kt:147-156 | the result embeds into the input at strictly increasing positions |
| Boundaries.CollapseSameValues | charts/piechart/src/main/java/PieChart.kt:147-156 | input and result hold the same set of values |
| Boundaries.CollapseOrderedIsStrict | charts/piechart/src/main/java/PieChart.kt:147-156 | a non-decreasing array collapses to a strictly increasing one |
| Boundaries.CollapseRemovesZeroSlice | charts/piechart/src/main/java/PieChart.kt:147-156 | [0, 0.5, 0.5, 1] is stored as [0, 0.5, 1] |
| HitTest.Fraction | charts/piechart/src/main/java/PieChart.kt:397-399 | the wrapped value lies in [0, 1) and differs from the input by a whole number |
| HitTest.FractionPeriodic | charts/piechart/src/main/java/PieChart.kt:397-399 | whole turns do not change the wrapped value |
| HitTest.Wrap | charts/piechart/src/main/java/PieChart.kt:397-399 | the two counting loops terminate with the wrapped value |
| HitTest.LastAtMost | charts/piechart/src/main/java/PieChart.kt:401 | the largest index whose boundary is at most the value (every later boundary is above it), or −1 |
| HitTest.LastAtMostUnique | charts/piechart/src/main/java/PieChart.kt:401 | those properties determine the index |
| HitTest.IndexOfLast | charts/piechart/src/main/java/PieChart.kt:401 | the backward scan of `indexOfLast` finds that index |
| HitTest.HitIndex | charts/piechart/src/main/java/PieChart.kt:395-401 | the hit index lies in −1 up to the last boundary index |
| HitTest.Touch | charts/piechart/src/main/java/PieChart.kt:395-401 | the loops plus the scan compute the hit index |
| HitTest.HitIndexInDrawnSlice | charts/piechart/src/main/java/PieChart.kt:397-401 | with boundaries from 0 to 1 the hit is a drawn slice containing the pointer's fraction of a turn |
| HitTest.HitIndexNonNegative | charts/piechart/src/main/java/PieChart.kt:401 | a first boundary of 0 keeps the index ≥ 0 |
| HitTest.HitIndexPeriodic | charts/piechart/src/main/java/PieChart.kt:395-401 | pointer angles a whole turn apart select the same slice |
| HitTest.HitIndexMayBeUndrawn | charts/piechart/src/main/java/PieChart.kt:401 | the index can be the last boundary, which starts no slice: [0] gives 0, and [0, 0.5] at 270° gives 1 |
| HitTest.HitIndexExamples | charts/piechart/src/main/java/PieChart.kt:395-401 | 200° on [0, 0.25, 0.5, 1] is slice 2, also as 20° rotated by 180°; −270° is slice 1 |
| HitTest.EarliestHitIndexAsWritten | piechart/src/main/java/it/czerwinski/android/charts/piechart/PieChart.kt:235-242 | the earliest hit test as written reads a radian angle as if it were converted by degToRad |
| HitTest.EarliestHitIndex | piechart/src/main/java/it/czerwinski/android/charts/piechart/PieChart.kt:235-242 | the corrected earliest hit test returns −1 or a boundary index |
| HitTest.EarliestHitIndexAgrees | piechart/src/main/java/it/czerwinski/android/charts/piechart/PieChart.kt:235-242 | corrected, the earliest hit test selects what the later revisions select |
| HitTest.EarliestHitIndexMisreads | piechart/src/main/java/it/czerwinski/android/charts/piechart/PieChart.kt:235 | as written, π/2 on [0, 0.25, 0.5, 1] selects slice 0; corrected, slice 1 |
| Adapter.Size | charts/piechart/src/main/java/adapters/FloatListPieChartAdapter.kt:48 | the number of stored values |
| Adapter.AdapterSum | charts/piechart/src/main/java/adapters/FloatListPieChartAdapter.kt:53 | the total is 0 without data and never negative for non-negative data |
| Adapter.Create | charts/piechart/src/main/java/adapters/FloatListPieChartAdapter.kt:30-40 | `data` starts as `initialData`, with no observers and no notifications |
| Adapter.Get | charts/piechart/src/main/java/adapters/FloatListPieChartAdapter.kt:62 | defined exactly for 0 ≤ i < size, and then it is data[i] |
| Adapter.Values | charts/piechart/src/main/java/PieChart.kt:545-546 | the iterator yields get(0) … get(size − 1) |
| Adapter.ValuesAreData | charts/piechart/src/main/java/adapters/FloatListPieChartAdapter.kt:49-62 | iteration gives back the list, so size and sum are the list's length and sum |
| Adapter.Percent | charts/piechart/src/main/java/adapters/FloatListPieChartAdapter.kt:71 | a 32-bit value; for a positive sum and a value in [0, sum] it is the integer part of 100·value/sum, within 0..100 |
| Adapter.LabelPercent | charts/piechart/src/main/java/adapters/FloatListPieChartAdapter.kt:70-71 | defined exactly where `get` is, as the truncated percent of the sum |
| Adapter.Labels | charts/piechart/src/main/java/PieChart.kt:551-552 | one label per entry, each `getLabel(i)` |
| Adapter.LabelsSumAtMostHundred | charts/piechart/src/main/java/adapters/FloatListPieChartAdapter.kt:70-71 | for non-negative data with positive sum the percent labels add up to at most 100 |
| Adapter.SetData | charts/piechart/src/main/java/adapters/FloatListPieChartAdapter.kt:40-44 | assignment replaces the list and notifies each registered observer once, in order, keeping the earlier log |
| Adapter.SetDataIsObserved | charts/piechart/src/main/java/adapters/FloatListPieChartAdapter.kt:40-54 | after assignment, size, sum and values are the new list's, and the log grew by the observers |
| Adapter.CreateDefaultIsEmpty | charts/piechart/src/main/java/adapters/FloatListPieChartAdapter.kt:32 | the default constructor gives size 0 and sum 0 |
| Adapter.LabelExamples | charts/piechart/src/main/java/adapters/FloatListPieChartAdapter.kt:54-71 | [1,2,3] sums to 6 and is labelled 16, 33 and 50 |
| PieChart.Initial | charts/piechart/src/main/java/PieChart.kt:136-162 | a new chart has boundaries [0], selections [0], index −1 and no listeners |
| PieChart.SetBoundaries | charts/piechart/src/main/java/PieChart.kt:147-156 | the setter stores the collapsed array and touches nothing else |
| PieChart.DataSetChange | charts/piechart/src/main/java/PieChart.kt:354-368 | both arrays have length max(size + 1, current length); the start is the current boundaries, padded with their last entry (0 when there are none); the target's first size + 1 entries are the boundaries of the normalised values; past them it repeats its last boundary whatever the sum, as `withSize` pads with the last entry; it starts at 0, is all zeros without data, and is padded with ones for a positive sum |
| PieChart.DataSetTargetIsShare | charts/piechart/src/main/java/PieChart.kt:362-368 | for a positive sum, target boundary i is the share of the total that the first i values make up |
| PieChart.DataSetZeroValueRepeats | charts/piechart/src/main/java/PieChart.kt:362-368 | a zero value repeats its boundary in the target, so its slice is empty |
| PieChart.DataSetFrame | charts/piechart/src/main/java/PieChart.kt:370-376 | a frame stores the collapsed interpolation and nothing else |
| PieChart.DataSetTargetOrdered | charts/piechart/src/main/java/PieChart.kt:362-368 | non-negative values give an ordered target |
| PieChart.FirstBoundaryStaysZero | charts/piechart/src/main/java/PieChart.kt:354-376 | every frame of a data-set change keeps the first boundary at 0 |
| PieChart.DataSetFramesStrictlyIncreasing | charts/piechart/src/main/java/PieChart.kt:354-376 | from ordered boundaries towards non-negative values, every stored frame is strictly increasing |
| PieChart.LastDataSetFrame | charts/piechart/src/main/java/PieChart.kt:370-376 | the final frame stores the collapsed target |
| PieChart.ZeroValueRemovesSlice | charts/piechart/src/main/java/PieChart.kt:354-376 | values [1, 0, 1] end as two slices, boundaries [0, 0.5, 1] |
| PieChart.OneHot | charts/piechart/src/main/java/PieChart.kt:411-413 | the one-hot target: 1 at the index and 0 at every other position |
| PieChart.SelectionAnimation | charts/piechart/src/main/java/PieChart.kt:407-417 | both arrays have one entry per slice; the start is the selections padded with their last entry (0 when there are none); the target is 1 exactly at the new index and 0 everywhere else, so an index outside the slices gives an all-zero target; it sums to 1 iff that index is a slice |
| PieChart.Notify | charts/piechart/src/main/java/PieChart.kt:432-440 | one call per listener, in order, each with (old, new) |
| PieChart.SetSelectionIndex | charts/piechart/src/main/java/PieChart.kt:136-141 | the index is stored, the selection animation starts, and every listener is told (old, new) after the earlier calls |
| PieChart.SelectionFrame | charts/piechart/src/main/java/PieChart.kt:419-425 | a frame stores the tween of the animation's arrays at that fraction as the selections and changes nothing else |
| PieChart.SelectionFramesInUnitRange | charts/piechart/src/main/java/PieChart.kt:407-427 | selections in [0, 1] stay in [0, 1] through every frame |
| PieChart.ClearSelection | charts/piechart/src/main/java/PieChart.kt:463-465 | index −1, an all-zero target, and listeners hear (old, −1) |
| PieChart.SameIndexStillNotifies | charts/piechart/src/main/java/PieChart.kt:136-141 | re-assigning the current index still calls the listeners |
| PieChart.Touch | charts/piechart/src/main/java/PieChart.kt:395-401 | a touch assigns the hit index, appends one (old, hit) call per listener in order, and starts the selection animation towards the hit slice |
| PieChart.TouchSelectsOneSlice | charts/piechart/src/main/java/PieChart.kt:395-417 | on boundaries from 0 to 1 a touch selects one drawn slice, whose target entry is 1, and the target sums to 1 |
| PieChart.AddListener | charts/piechart/src/main/java/PieChart.kt:447-449 | appends the listener, duplicates included, and changes nothing else |
| PieChart.FirstIndex | charts/piechart/src/main/java/PieChart.kt:456-458 | the position of the first occurrence: it holds the element and no earlier position does |
| PieChart.RemoveFirst | charts/piechart/src/main/java/PieChart.kt:456-458 | `MutableList.remove`: without the element the list is unchanged; otherwise its first occurrence is cut out, the rest keep their order, and the multiset loses exactly one copy |
| PieChart.RemoveListener | charts/piechart/src/main/java/PieChart.kt:456-458 | removes the first registration of the listener, keeps the other listeners in their order (so later notifications keep their order), and changes nothing else; an unregistered listener changes nothing |
| PieChart.RemoveListenerExample | charts/piechart/src/main/java/PieChart.kt:456-458 | of two registrations of the same listener only the first is removed |
| PieChart.RemoveAfterAdd | charts/piechart/src/main/java/PieChart.kt:447-458 | removing a newly added listener restores the list |
| PieChart.DrawSlices | charts/piechart/src/main/java/PieChart.kt:320-352 | boundaries.size − 1 slices; slice i spans rotation + 360·b[i] to rotation + 360·b[i+1]; a missing selection reads 0; a label only when the adapter has entry i |
| PieChart.SlicesAreContiguous | charts/piechart/src/main/java/PieChart.kt:324-326 | each slice ends where the next starts |
| PieChart.SlicesCoverFullTurn | charts/piechart/src/main/java/PieChart.kt:324-326 | boundaries from 0 to 1 give sweeps adding up to 360 degrees |
| PieChart.CollapsedSliceShiftsLabels | charts/piechart/src/main/java/PieChart.kt:336-346 | after a zero value is collapsed, later slices ask for shifted labels |
| PieChart.MiddleInitial | piechart/src/main/java/PieChart.kt:107 | the middle revision starts with index 0 selected |
| PieChart.MiddleSetSelectionIndex | piechart/src/main/java/PieChart.kt:107-111 | stores the index and starts the same selection animation, with no listener calls |
| PieChart.MiddleTouch | piechart/src/main/java/PieChart.kt:299-305 | a touch assigns the same hit index through the middle setter (lines 107-111) and changes nothing else in the chart, with no listener calls; it starts the same selection animation towards the hit slice as the canonical `Touch` |
| PieChart.MiddleClearSelection | piechart/src/main/java/PieChart.kt:337-339 | assigns −1 with an all-zero target |
| PieChart.EarliestTouch | piechart/src/main/java/it/czerwinski/android/charts/piechart/PieChart.kt:232-260 | as written, a touch starts the selection animation from the selections padded with their last entry towards the slice the as-written hit test finds: one entry per slice, 1 exactly at that slice and 0 elsewhere |
| PieChart.EarliestTouchMisreadsAngle | piechart/src/main/java/it/czerwinski/android/charts/piechart/PieChart.kt:235-244 | as written, a touch at r radians animates like a later revision's touch at DegToRad(r) degrees |
| PieChart.EarliestTouchCorrected | piechart/src/main/java/it/czerwinski/android/charts/piechart/PieChart.kt:232-260 | with the intended conversion, the animation runs from the padded selections to the slice the corrected hit test finds: 1 exactly there and 0 elsewhere |
| PieChart.EarliestTouchAgrees | piechart/src/main/java/it/czerwinski/android/charts/piechart/PieChart.kt:232-244 | corrected, the earliest revision animates towards the slice the later ones select |
| PieChart.EarliestTouchExample | piechart/src/main/java/it/czerwinski/android/charts/piechart/PieChart.kt:235-260 | at π/2 on [0, 0.25, 0.5, 1] the as-written animation targets slice 0, the corrected one slice 1 |
| Colors.MixInts | piechart/src/main/java/it/czerwinski/android/charts/common/graphics/Colors.kt:14-15 | ratio 0 and 1 give the endpoints; a ratio in [0, 1] gives a value between them, within half a unit of the exact blend |
| Colors.MixColors | piechart/src/main/java/it/czerwinski/android/charts/common/graphics/Colors.kt:6-12 | ratio 0 gives the first colour and 1 the second |
| Colors.MixColorsIsColor | piechart/src/main/java/it/czerwinski/android/charts/common/graphics/Colors.kt:6-15 | a ratio in [0, 1] keeps every channel within 0..255 |
| Colors.MixColorsSame | piechart/src/main/java/it/czerwinski/android/charts/common/graphics/Colors.kt:6-15 | mixing a colour with itself gives it back for every ratio |
| Colors.MixColorsExample | piechart/src/main/java/it/czerwinski/android/charts/common/graphics/Colors.kt:6-15 | black to cyan at 0.5 rounds 127.5 up to 128; cyan to blue at 0.25 gives green 191 |
| Rects.SetRectF | piechart/src/main/java/it/czerwinski/android/charts/common/graphics/InSituRectFProvider.kt:10-16 | the shared rectangle takes exactly the four edges |
| Rects.CopyRectF | piechart/src/main/java/it/czerwinski/android/charts/common/graphics/InSituRectFProvider.kt:18-19 | the shared rectangle becomes equal to the argument |
| Rects.RectFFromRect | piechart/src/main/java/it/czerwinski/android/charts/common/graphics/InSituRectFProvider.kt:21-22 | the integer edges are copied exactly |
| Rects.OvalF | piechart/src/main/java/it/czerwinski/android/charts/common/graphics/InSituRectFProvider.kt:24-25 | a square of side 2r centred at (cx, cy) |
| Rects.SetRect | piechart/src/main/java/it/czerwinski/android/charts/common/graphics/InSituRectProvider.kt:11-17 | the shared rectangle takes exactly the four edges |
| Rects.RectFromRectF | piechart/src/main/java/it/czerwinski/android/charts/common/graphics/InSituRectProvider.kt:19-25 | each edge is within half a unit of the float edge, for edges in range |
| Rects.CopyRect | piechart/src/main/java/it/czerwinski/android/charts/common/graphics/InSituRectProvider.kt:27-28 | the shared rectangle becomes equal to the argument |
| Rects.Oval | piechart/src/main/java/it/czerwinski/android/charts/common/graphics/InSituRectProvider.kt:30-31 | edges summing to twice the centre and 2r apart on both axes |
| Rects.SharedInstanceOverwritten | piechart/src/main/java/it/czerwinski/android/charts/common/graphics/InSituRectFProvider.kt:8-19 | a call's result does not depend on earlier calls and overwrites their result |
| Rects.RectRoundTrip | piechart/src/main/java/it/czerwinski/android/charts/common/graphics/InSituRectProvider.kt:19-25 | 32-bit edges converted to floats and rounded back give the same rectangle |
| Rects.OvalRoundTrip | piechart/src/main/java/it/czerwinski/android/charts/common/graphics/InSituRectProvider.kt:19-31 | the float oval of an integer centre and radius rounds to the integer oval |
| Rects.Inset | piechart/src/main/java/SimplePieChartLabelUIDelegate.kt:77 | the centre stays, and width and height shrink by twice the insets |
| Rects.InsetZero | piechart/src/main/java/SimplePieChartLabelUIDelegate.kt:77 | an inset of 0 leaves the rectangle unchanged |
| DonutPath.AnglePaddingAsWritten | piechart/src/main/java/it/czerwinski/android/charts/common/graphics/PathProvider.kt:35-36 | as written, the padding angle is degToRad(p/r)/2: the ratio is converted the wrong way |
| DonutPath.AnglePadding | piechart/src/main/java/it/czerwinski/android/charts/common/graphics/PathProvider.kt:35-36 | corrected, the arc the padding angle cuts from the circle is half the padding long |
| DonutPath.AnglePaddingAsWrittenMisses | piechart/src/main/java/it/czerwinski/android/charts/common/graphics/PathProvider.kt:4 | as written, that arc is never half the padding, for any non-zero padding |
| DonutPath.AnglePaddingExample | piechart/src/main/java/it/czerwinski/android/charts/common/graphics/PathProvider.kt:35-36 | padding 10 on radius 100 is under 0.001° as written and about 2.865° intended |
| DonutPath.SliceArcs | piechart/src/main/java/it/czerwinski/android/charts/common/graphics/PathProvider.kt:19-31 | both ovals are centred with the given radii; the outer arc runs start+pad → end−pad, the inner end−pad → start+pad |
| DonutPath.UnpaddedSliceRetraces | piechart/src/main/java/it/czerwinski/android/charts/common/graphics/PathProvider.kt:19-31 | without padding the outer arc covers exactly the slice and the inner arc is its reverse |
| DonutPath.DonutSlice | piechart/src/main/java/it/czerwinski/android/charts/common/graphics/PathProvider.kt:18-33 | a slice exactly for non-zero radii: the two arcs on ovals centred at (cx, cy), each cut at both ends by an angle whose arc is half the padding on its own ring |
| DonutPath.DonutSliceAsWritten | piechart/src/main/java/it/czerwinski/android/charts/common/graphics/PathProvider.kt:18-36 | a slice exactly for non-zero radii: the same two arcs and ovals, each cut by the as-written padding angle of its own ring |
| DonutPath.NeighboursGapIsPadding | piechart/src/main/java/it/czerwinski/android/charts/common/graphics/PathProvider.kt:19-26 | corrected, two neighbouring slices leave an outer gap exactly the padding long |
| DonutPath.NeighboursGapAsWritten | piechart/src/main/java/it/czerwinski/android/charts/common/graphics/PathProvider.kt:19-36 | as written, that gap is not the padding |
| Labels.ApplyFrom | piechart/src/main/java/SimplePieChartLabelUIDelegate.kt:53-56 | position, spacing and minimum percent are taken over as given |
| Labels.AnchorRadius | charts/piechart/src/main/java/SimplePieChartLabelsUI.kt:114 | position 0 anchors on the radius; a positive position with non-negative spacing anchors outside it |
| Labels.PlaceLabel | charts/piechart/src/main/java/SimplePieChartLabelsUI.kt:106-124 | the text box is centred on the bisector at anchor + half-extent·position along each axis |
| Labels.DrawLabel | charts/piechart/src/main/java/SimplePieChartLabelsUI.kt:105-127 | text is drawn iff the label exists and the slice spans at least minPercent, and then it is placed as above |
| Labels.CenteredOnEdge | charts/piechart/src/main/java/SimplePieChartLabelsUI.kt:114-116 | at position 0 the text centre lies on the slice's edge |
| Labels.OutsideLabelClearsSlice | charts/piechart/src/main/java/SimplePieChartLabelsUI.kt:114-123 | at position 1 on a bisector pointing right, the text starts `spacing` beyond the edge, vertically centred |
| Labels.DefaultsDrawEveryLabel | charts/piechart/src/main/java/SimplePieChartLabelsUI.kt:52-56 | with the defaults a label is drawn iff its span is non-negative |
| Labels.ThresholdExample | charts/piechart/src/main/java/SimplePieChartLabelsUI.kt:105 | a tenth of a turn is drawn at minimum 10 and hidden at 11; no label, no text |
| Labels.HorizontalPadding | piechart/src/main/java/SimplePieChartLabelUIDelegate.kt:68-75 | the largest width + spacing over the labels, or 0 when that is larger |
| Labels.VerticalPadding | piechart/src/main/java/SimplePieChartLabelUIDelegate.kt:68-75 | the largest height + spacing over the labels, or 0 when that is larger |
| Labels.ApplyLabelsPadding | piechart/src/main/java/SimplePieChartLabelUIDelegate.kt:65-78 | position ≤ 0 leaves the rectangle; otherwise the single pass insets it by the rounded maxima |
| Labels.NoLabelsNoPadding | piechart/src/main/java/SimplePieChartLabelUIDelegate.kt:68-77 | no labels, no padding, rectangle unchanged |
| Labels.PaddingExample | piechart/src/main/java/SimplePieChartLabelUIDelegate.kt:71-75 | labels 30×10 and 50×8 with spacing 4 need 54 across and 14 down |
| SliceRenderers.LayerTypeFor | charts/piechart/src/main/java/BasePieChartUI.kt:76-81 | a software layer iff the selected elevation is positive |
| SliceRenderers.DefaultLayerIsSoftware | charts/piechart/src/main/java/BasePieChartUI.kt:55 | the default elevation 4 asks for a software layer |
| SliceRenderers.ColorIndex | charts/piechart/src/main/java/BasePieChartUI.kt:119 | undefined for an empty palette; otherwise below the palette size, and the index itself when it fits |
| SliceRenderers.ColorIndexPeriodic | charts/piechart/src/main/java/BasePieChartUI.kt:119 | slices a whole palette apart get the same colour index |
| SliceRenderers.SliceColor | charts/piechart/src/main/java/BasePieChartUI.kt:119-120 | defined iff the palette is non-empty and the selected palette reaches the index; the idle colour at 0, the selected colour at 1, a valid colour in between |
| SliceRenderers.DefaultColors | charts/piechart/src/main/java/BasePieChartUI.kt:40-45 | by default every slice is cyan idle and blue selected |
| SliceRenderers.ShadowFor | charts/piechart/src/main/java/BasePieChartUI.kt:121-130 | a shadow iff selection > 0.01, cast straight down, blur and drop selection·elevation, in the shadow colour |
| SliceRenderers.ShadowGrows | charts/piechart/src/main/java/BasePieChartUI.kt:121-127 | more selection means a longer shadow |
| SliceRenderers.AfterDraw | charts/piechart/src/main/java/BasePieChartUI.kt:165-167 | the paint ends without a shadow |
| SliceRenderers.OuterRadius | charts/piechart/src/main/java/BasePieChartUI.kt:131 | the outer radius plus shift plus elevation is the chart radius |
| SliceRenderers.SelectedSliceStaysInside | charts/piechart/src/main/java/BasePieChartUI.kt:131 | a selected slice, shifted and with its shadow, stays within the chart radius |
| SliceRenderers.Bisector | charts/piechart/src/main/java/BasePieChartUI.kt:102 | the bisector is equally far from both edges |
| SliceRenderers.RadialOffset | charts/piechart/src/main/java/BasePieChartUI.kt:103-106 | a zero distance gives no translation |
| SliceRenderers.RadialOffsetLength | charts/piechart/src/main/java/BasePieChartUI.kt:101-106 | on the unit circle the translation is `distance` long |
| SliceRenderers.Transform | charts/piechart/src/main/java/BasePieChartUI.kt:94-107 | a shift of selection·selectedShift along the bisector; none for an unselected slice |
| SliceRenderers.DefaultDonut | charts/piechart/src/main/java/DonutPieChartUI.kt:45-47 | by default the selected width equals the width and there is no spacing |
| SliceRenderers.Thickness | charts/piechart/src/main/java/DonutPieChartUI.kt:97-100 | the thickness is the smaller of the outer radius and the blended width |
| SliceRenderers.ThicknessEndpoints | charts/piechart/src/main/java/DonutPieChartUI.kt:99 | selection 0 clamps the width and 1 the selected width |
| SliceRenderers.DefaultThicknessIgnoresSelection | charts/piechart/src/main/java/DonutPieChartUI.kt:47 | with the default selected width the thickness does not depend on selection |
| SliceRenderers.DrawDonut | charts/piechart/src/main/java/BasePieChartUI.kt:109-139 | drawn iff the colour exists; colour, shadow, centre (cx, cy), outer radius, full sweep, thickness equal to the clamped blended width, inset spacing/2, and the bisector shift |
| SliceRenderers.MiddleInnerRadius | piechart/src/main/java/DonutPieChartUI.kt:122-125 | never negative; the outer radius less the blended width, or 0 |
| SliceRenderers.MiddleThicknessAgrees | piechart/src/main/java/DonutPieChartUI.kt:122-137 | outer minus inner radius equals the canonical clamped thickness for every input |
| SliceRenderers.MiddleDrawDonut | piechart/src/main/java/DonutPieChartUI.kt:98-142 | the middle donut draws iff the colour exists |
| SliceRenderers.MiddleDonutAgrees | piechart/src/main/java/DonutPieChartUI.kt:98-142 | the middle donut draws the same slice as the canonical one |
| SliceRenderers.EarliestDrawDonut | piechart/src/main/java/it/czerwinski/android/charts/piechart/DonutPieChartUI.kt:92-118 | as written: drawn iff the colour exists, with that colour, the selection's shadow and the bisector shift; the outline is the as-written `donutSlice` of the two radii, present iff both are non-zero, its outer arc starting the as-written padding angle after the slice's start |
| SliceRenderers.EarliestDrawDonutCorrected | piechart/src/main/java/it/czerwinski/android/charts/piechart/DonutPieChartUI.kt:92-118 | with the intended padding: drawn iff the colour exists, with that colour, the selection's shadow and the bisector shift; the outline is the corrected `donutSlice` of the same radii with the whole spacing as padding |
| SliceRenderers.EarliestDonutWith | piechart/src/main/java/it/czerwinski/android/charts/piechart/DonutPieChartUI.kt:92-118 | the earliest `draw` for a given outline builder: colour, shadow, bisector shift, and the outline of the inner and outer radius |
| SliceRenderers.EarliestDonutDiffersInOutline | piechart/src/main/java/it/czerwinski/android/charts/piechart/DonutPieChartUI.kt:92-118 | the as-written and corrected draws agree on colour, shadow and translation and differ only in the outline |
| SliceRenderers.EarliestOuterGapIsHalfSpacing | piechart/src/main/java/it/czerwinski/android/charts/piechart/DonutPieChartUI.kt:115 | corrected, each outer arc is shortened by an arc half the spacing long |
| SliceRenderers.MiddleDrawWedge | piechart/src/main/java/SimplePieChartUI.kt:133-172 | drawn iff the colour exists, with that colour and the selection's shadow; the sector is centred at (cx, cy), starts at the slice's start angle, reaches the outer radius, sweeps to the end angle and is inset by spacing/2; bisector shift; a label is handed off iff present, with the same centre, outer radius and start and end angles |
| SliceRenderers.DrawHandOff | piechart/src/main/java/SimplePieChartUI.kt:162-172 | no label, no text; otherwise the delegate draws it under the wedge's translation |
| SliceRenderers.WedgeLabelOnEdge | piechart/src/main/java/SimplePieChartUI.kt:162-172 | at position 0 the label sits on the wedge's outer edge and moves with the wedge |
| TypedArrays.Indices | charts/core/src/main/java/TypedArray.kt:32-35 | 0 until length without an index count, otherwise getIndex over 0 until indexCount, in order |
| TypedArrays.PlainIndicesAreRange | charts/core/src/main/java/TypedArray.kt:32-35 | without an index count the indices are exactly the integers in [0, length), each once |
| TypedArrays.IndicesExamples | charts/core/src/main/java/TypedArray.kt:32-35 | explicit indices 3 and 7; a plain length of 2 gives 0 and 1 |
| TypedArrays.FindIndexWithValue | charts/core/src/main/java/TypedArray.kt:68-69 | undefined without indices; otherwise one of them: the first with a value, else the last |
| TypedArrays.FoundIndexHasValue | charts/core/src/main/java/TypedArray.kt:68-69 | if any index has a value, the result has one |
| TypedArrays.FindIndexWithValueExamples | charts/core/src/main/java/TypedArray.kt:68-69 | the four tested cases with indices 11, 12 and 13 |
| TypedArrays.GetInterpolator | charts/core/src/main/java/TypedArray.kt:47-57 | the default for id 0 or any failure, otherwise the loaded interpolator |
| TypedArrays.InterpolatorIsDefaultOrLoaded | charts/core/src/main/java/TypedArray.kt:47-57 | the result is the default or was loaded from a non-zero id |

## Left out

- Trigonometry: `atan2` is not modelled, so the hit test starts from the pointer angle. `cos` and `sin` are uninterpreted function parameters.
- IEEE floats: everything is exact over the reals, so "sums to 1" and the round trips hold exactly. NaN and infinities appear only where the source divides by zero: `Adapter.Percent` with a zero sum, and `DonutPath.DonutSlice` / `DonutPath.DonutSliceAsWritten` with a zero radius. There the source still builds a path from non-finite angles. That path is not modelled: those two return `None`.
- Android view lifecycle and drawing: `onMeasure`, `updatePieChartRect`, `onDraw`, `Gravity.apply`, and the Canvas, Paint and Path calls. Only the numbers handed to them are modelled.
- Animation stepping: `ValueAnimator` timing and interpolators belong to the platform. Overlapping animators that write the same field are not modelled. The code starts every animation from the current arrays and promises no re-anchoring or continuity beyond that.
- The reflective UI instantiation in `createUI`: it is class loading.
- Motion events: `onTouchEvent` reacts only to `ACTION_UP` and `ACTION_POINTER_UP`, and takes the pointer relative to the chart's centre. `PieChart.Touch` models that release, starting from its angle. Other actions are ignored by the source and are not modelled.
- Typeface and text handling (`TextPaint`, `drawTextAdvanced` upper-casing): measured text sizes are inputs, and a label is the integer percent it formats.
- Glue: `getColors`, `withStyledAttributes`, `PieChartExtensions.kt`, `InSituPathProvider` and the two `Canvas.kt` translate helpers. The canonical `SimplePieChartUI.kt` is left out too, because it only forwards to `AdvancedPath`, which is not part of this model.
- `mixColors`, `withRadialTranslation`, `degToRad` and `FULL_ANGLE` of the later revisions come from an external library. The canonical `BasePieChartUI.kt` imports `degToRad` and `mixColors` from it, and `SimplePieChartLabelsUI.kt` imports `degToRad` and `FULL_ANGLE`. They are taken to be the `common/graphics` `mixColors`, `degToRad` and `FULL_ANGLE`, and a translation by distance·(cos, sin) of the angle.
- Interface-only files (`PieChartUI`, `PieChartLabelsUI`, `PieChartUITransformation`, `RectProvider`, `RectFProvider`) have no behaviour.
- The demo app is UI wiring around random data.
- Registration of adapter observers (`android.database.Observable`): observers are opaque numbers, and notification is a log.
- Packing a colour into one 32-bit `Int`: colours are four channels.
- Rects.Oval: no 32-bit wrap-around of `cx ± radius`, because the edges are unbounded integers.
- Rects.Inset: no 32-bit wrap-around of the inset edges. `Rect.inset` itself belongs to the platform and is modelled from its documented behaviour.
- SliceRenderers.ColorIndex: the contract does not state the remainder itself. Periodicity, the property the palette relies on, is proved separately in `ColorIndexPeriodic`.
- ArrayTween.Evaluate: a length mismatch truncates to the shorter array, as the `zip` in the code does, rather than failing fast.

## Findings

| source | as written | input that shows it | evidently intended | confidence | as-written member | corrected member |
|---|---|---|---|---|---|---|
| piechart/src/main/java/it/czerwinski/android/charts/piechart/PieChart.kt:235 | the hit test converts the `atan2` radians with the `common` `radToDeg`, whose body scales by 2π/360 (piechart/src/main/java/it/czerwinski/android/charts/common/Math.kt:8) | a pointer at π/2 radians (90°) on boundaries [0, 0.25, 0.5, 1] selects slice 0 | convert by 360/2π and select slice 1, as the later revisions do | not executed | HitTest.EarliestHitIndexAsWritten | HitTest.EarliestHitIndex |
| piechart/src/main/java/it/czerwinski/android/charts/common/graphics/PathProvider.kt:35-36 | `anglePadding` converts padding/radius with the same swapped `radToDeg` | padding 10 on radius 100 gives under 0.001° instead of about 2.865° | an angle whose arc on the radius is half the padding, so neighbouring slices are a padding apart | not executed | DonutPath.AnglePaddingAsWritten | DonutPath.AnglePadding |

Both halves reach the earliest revision's view code. `PieChart.EarliestTouch` and `SliceRenderers.EarliestDrawDonut` model it as written, on top of the as-written hit test and `donutSlice`. `PieChart.EarliestTouchCorrected` and `SliceRenderers.EarliestDrawDonutCorrected` are the same operations on the corrected members, and the agreement and gap lemmas are stated about them. The lemmas `HitTest.EarliestHitIndexMisreads`, `PieChart.EarliestTouchExample`, `DonutPath.AnglePaddingExample` and `DonutPath.NeighboursGapAsWritten` exhibit the discrepancies.

=== FILE: Adapter.dfy ===
/**
 * `FloatListPieChartAdapter`: a data set adapter backed by a list of values.
 * It reports the list's size and sum, indexes into it, formats each value as an
 * integer percent of the sum, and notifies its observers when the list is
 * replaced. The middle revision is identical; the earliest has no labels.
 */
module Adapter {
  import opened Options
  import opened Collections
  import opened Numeric
  import opened RealArith

  /** Observers are identified by an opaque number; their callbacks are not modelled. */
  type Observer = nat

  /**
   * The adapter's list, the observers registered with it, and the log of
   * `onDataSetChanged` calls it has made, in order.
   */
  datatype FloatListAdapter = FloatListAdapter(data: seq<real>, observers: seq<Observer>, notified: seq<Observer>)

  /** The constructor: `data` starts as `initialData`, which defaults to the empty list. */
  function Create(initialData: seq<real> := []): (a: FloatListAdapter)
    ensures a.data == initialData
    ensures a.observers == [] && a.notified == []
  {
    FloatListAdapter(initialData, [], [])
  }

  /** `size`: the number of values in the backing list. */
  function Size(a: FloatListAdapter): (n: nat)
    ensures n == |a.data|
  {
    |a.data|
  }

  /** `sum`: zero without data, and never negative for non-negative data. */
  function AdapterSum(a: FloatListAdapter): (s: real)
    ensures |a.data| == 0 ==> s == 0.0
    ensures AllNonNegative(a.data) ==> s >= 0.0
  {
    assert AllNonNegative(a.data) ==> Sum(a.data) >= 0.0 by {
      if AllNonNegative(a.data) {
        SumNonNegative(a.data);
      }
    }
    Sum(a.data)
  }

  /** `get(index)`: the value at `index`; `None` where the list access throws. */
  function Get(a: FloatListAdapter, index: int): (r: Option<real>)
    ensures r.Some? <==> 0 <= index < Size(a)
    ensures r.Some? ==> r.value == a.data[index]
  {
    if 0 <= index < |a.data| then Some(a.data[index]) else None
  }

  /** The values the adapter's iterator yields: `get(0)` up to `get(size - 1)`. */
  function Values(a: FloatListAdapter): (r: seq<real>)
    ensures |r| == Size(a)
    ensures forall i :: 0 <= i < |r| ==> Get(a, i) == Some(r[i])
  {
    seq(Size(a), i requires 0 <= i < Size(a) => Get(a, i).value)
  }

  /** Iterating the adapter gives back its list, so the chart sees exactly `data`. */
  lemma ValuesAreData(a: FloatListAdapter)
    ensures Values(a) == a.data
    ensures |Values(a)| == Size(a) && Sum(Values(a)) == AdapterSum(a)
  {
  }

  /**
   * `(100f * value / sum).toInt()`. A zero sum divides by zero: `NaN` (for a zero
   * value) converts to 0, and an infinity saturates.
   */
  function Percent(value: real, total: real): (p: int)
    ensures IsInt32(p)
    ensures total > 0.0 && 0.0 <= value <= total ==> 0 <= p <= 100 && p as real <= 100.0 * value / total < p as real + 1.0
  {
    if total == 0.0 then
      (if value == 0.0 then 0 else if value > 0.0 then INT_MAX else INT_MIN)
    else
      PercentRange(value, total);
      ToInt(100.0 * value / total)
  }

  lemma PercentRange(value: real, total: real)
    requires total != 0.0
    ensures total > 0.0 && 0.0 <= value <= total ==> 0.0 <= 100.0 * value / total <= 100.0
  {
    if total > 0.0 && 0.0 <= value <= total {
      assert value / total <= 1.0;
      assert 100.0 * value / total == 100.0 * (value / total);
    }
  }

  /** `getLabel(index)`, as the integer percent it formats; `None` where `get` throws. */
  function LabelPercent(a: FloatListAdapter, index: int): (r: Option<int>)
    ensures r.Some? <==> 0 <= index < Size(a)
    ensures r.Some? ==> r.value == Percent(a.data[index], AdapterSum(a))
  {
    match Get(a, index)
    case Some(v) => Some(Percent(v, AdapterSum(a)))
    case None => None
  }

  /** The percent of every value of a list, against a fixed total. */
  function PercentsOf(xs: seq<real>, total: real): (r: seq<int>)
    ensures |r| == |xs|
    ensures forall i :: 0 <= i < |xs| ==> r[i] == Percent(xs[i], total)
  {
    if |xs| == 0 then [] else PercentsOf(xs[..|xs| - 1], total) + [Percent(xs[|xs| - 1], total)]
  }

  /** Sum of integers, folded from the left. */
  function IntSum(xs: seq<int>): int
  {
    if |xs| == 0 then 0 else IntSum(xs[..|xs| - 1]) + xs[|xs| - 1]
  }

  /** All labels of the adapter, in index order. */
  function Labels(a: FloatListAdapter): (r: seq<int>)
    ensures |r| == Size(a)
    ensures forall i :: 0 <= i < |r| ==> LabelPercent(a, i) == Some(r[i])
  {
    PercentsOf(a.data, AdapterSum(a))
  }

  /**
   * Truncation only loses: for non-negative data with a positive sum, the
   * percent labels add up to at most 100.
   */
  lemma LabelsSumAtMostHundred(a: FloatListAdapter)
    requires AllNonNegative(a.data) && AdapterSum(a) > 0.0
    ensures IntSum(Labels(a)) <= 100
  {
    var t := AdapterSum(a);
    PercentsSumBound(a.data, t);
    MulDivCancel(100.0, t);
    assert Labels(a) == PercentsOf(a.data, t);
  }

  lemma {:induction false} PercentsSumBound(xs: seq<real>, total: real)
    requires total > 0.0 && AllNonNegative(xs) && Sum(xs) <= total
    ensures IntSum(PercentsOf(xs, total)) as real <= 100.0 * Sum(xs) / total
  {
    if |xs| > 0 {
      var init := xs[..|xs| - 1];
      var x := xs[|xs| - 1];
      assert AllNonNegative(init);
      SumNonNegative(init);
      PercentsSumBound(init, total);
      assert PercentsOf(xs, total)[..|xs| - 1] == PercentsOf(init, total);
      DivAdd(100.0 * Sum(init), 100.0 * x, total);
    }
  }

  /**
   * Assigning `data` replaces the list and calls every registered observer once,
   * in registration order.
   */
  function SetData(a: FloatListAdapter, value: seq<real>): (r: FloatListAdapter)
    ensures r.data == value && r.observers == a.observers
    ensures |r.notified| == |a.notified| + |a.observers|
    ensures r.notified[..|a.notified|] == a.notified
    ensures forall k :: 0 <= k < |a.observers| ==> r.notified[|a.notified| + k] == a.observers[k]
  {
    a.(data := value, notified := a.notified + a.observers)
  }

  /** After an assignment the adapter reports the new list's size, sum and values. */
  lemma SetDataIsObserved(a: FloatListAdapter, value: seq<real>)
    ensures Size(SetData(a, value)) == |value|
    ensures AdapterSum(SetData(a, value)) == Sum(value)
    ensures Values(SetData(a, value)) == value
    ensures multiset(SetData(a, value).notified) == multiset(a.notified) + multiset(a.observers)
  {
    ValuesAreData(SetData(a, value));
  }

  /** The default constructor gives an empty data set. */
  lemma CreateDefaultIsEmpty()
    ensures Size(Create()) == 0 && AdapterSum(Create()) == 0.0
  {
  }

  /** `[1, 2, 3]` sums to 6 and is labelled 16, 33 and 50 percent. */
  lemma LabelExamples()
    ensures AdapterSum(Create([1.0, 2.0, 3.0])) == 6.0
    ensures Labels(Create([1.0, 2.0, 3.0])) == [16, 33, 50]
  {
    var a := Create([1.0, 2.0, 3.0]);
    assert Sum([1.0, 2.0, 3.0]) == 6.0 by {
      assert [1.0, 2.0, 3.0][..2] == [1.0, 2.0];
      assert [1.0, 2.0][..1] == [1.0];
    }
    assert Truncate(100.0 / 6.0) == 16;
    assert Truncate(200.0 / 6.0) == 33;
    assert Truncate(300.0 / 6.0) == 50;
  }
}

=== FILE: Angles.dfy ===
/**
 * Angle constants and degree/radian conversion. The repository has two
 * copies: the graphics package converts correctly, while the older `common`
 * package declares the same two extension functions with their bodies
 * swapped, so its `radToDeg` multiplies by 2π/360.
 */
module Angles {

  /** `Math.PI.toFloat()`: the single-precision value nearest to π, with all its decimal digits. */
  const PI: real := 3.1415927410125732421875

  const DOUBLE_PI: real := PI * 2.0

  /** Degrees in a full turn. */
  const FULL_ANGLE: real := 360.0

  /** Graphics `radToDeg`: the result is the same fraction of a full turn as `x` is of 2π. */
  function RadToDeg(x: real): (r: real)
    ensures r / FULL_ANGLE == x / DOUBLE_PI
  {
    x * FULL_ANGLE / DOUBLE_PI
  }

  /** Graphics `degToRad`: the result is the same fraction of 2π as `x` is of a full turn. */
  function DegToRad(x: real): (r: real)
    ensures r / DOUBLE_PI == x / FULL_ANGLE
  {
    x * DOUBLE_PI / FULL_ANGLE
  }

  /** The two graphics conversions are inverse to each other. */
  lemma RadDegRoundTrip(x: real)
    ensures DegToRad(RadToDeg(x)) == x
    ensures RadToDeg(DegToRad(x)) == x
  {
  }

  /** A full turn in radians is a full turn in degrees. */
  lemma FullTurn()
    ensures RadToDeg(DOUBLE_PI) == FULL_ANGLE
    ensures DegToRad(FULL_ANGLE) == DOUBLE_PI
  {
  }

  /**
   * The `common` package's `radToDeg`, as written: it scales by 2π/360 and so
   * converts degrees to radians, whatever its name says.
   */
  function CommonRadToDeg(x: real): (r: real)
    ensures r == DegToRad(x)
  {
    x * DOUBLE_PI / FULL_ANGLE
  }

  /** The `common` package's `degToRad`, as written: it scales by 360/2π. */
  function CommonDegToRad(x: real): (r: real)
    ensures r == RadToDeg(x)
  {
    x * FULL_ANGLE / DOUBLE_PI
  }

  /** Despite the swapped names, the two `common` functions are still inverse to each other. */
  lemma CommonRoundTrip(x: real)
    ensures CommonDegToRad(CommonRadToDeg(x)) == x
    ensures CommonRadToDeg(CommonDegToRad(x)) == x
  {
    RadDegRoundTrip(x);
  }

  /** The `common` `radToDeg` disagrees with the graphics one on every non-zero angle. */
  lemma CommonRadToDegIsNotRadToDeg(x: real)
    requires x != 0.0
    ensures CommonRadToDeg(x) != RadToDeg(x)
  {
    var k := DOUBLE_PI / FULL_ANGLE;
    assert CommonRadToDeg(x) == x * k;
    assert RadToDeg(x) == x / k;
    assert 0.0 < k < 1.0;
  }
}

=== FILE: ArrayTween.dfy ===
/**
 * `FloatArrayEvaluator.evaluate`: element-wise linear interpolation of two
 * arrays over their `zip`. The fraction is not clamped, and a length mismatch
 * silently truncates to the shorter array. Both copies of the evaluator in the
 * repository are textually identical; this module models both.
 */
module ArrayTween {
  import opened Collections
  import opened RealArith

  /** Linear interpolation of one pair: `start + fraction * (end - start)`. */
  function Lerp(fraction: real, start: real, end: real): real
  {
    start + fraction * (end - start)
  }

  /** `x` lies in the closed interval spanned by `a` and `b`, whichever is larger. */
  predicate Between(x: real, a: real, b: real)
  {
    (a <= x <= b) || (b <= x <= a)
  }

  /** Interpolates `startValue` towards `endValue`, pairing elements up to the shorter length. */
  function Evaluate(fraction: real, startValue: seq<real>, endValue: seq<real>): (r: seq<real>)
    ensures |r| == if |startValue| <= |endValue| then |startValue| else |endValue|
    ensures forall i :: 0 <= i < |r| ==> r[i] == Lerp(fraction, startValue[i], endValue[i])
  {
    if |startValue| == 0 || |endValue| == 0 then []
    else [Lerp(fraction, startValue[0], endValue[0])] + Evaluate(fraction, startValue[1..], endValue[1..])
  }

  /** Fraction 0 reproduces the start array and fraction 1 the end array. */
  lemma EvaluateEndpoints(startValue: seq<real>, endValue: seq<real>)
    requires |startValue| == |endValue|
    ensures Evaluate(0.0, startValue, endValue) == startValue
    ensures Evaluate(1.0, startValue, endValue) == endValue
  {
  }

  /** An element whose endpoints agree is constant for every fraction, including extrapolation. */
  lemma EvaluateFixedElement(fraction: real, startValue: seq<real>, endValue: seq<real>, i: nat)
    requires i < |startValue| && i < |endValue|
    requires startValue[i] == endValue[i]
    ensures Evaluate(fraction, startValue, endValue)[i] == startValue[i]
  {
  }

  /** A fraction in [0, 1] keeps every element between its two endpoints. */
  lemma EvaluateBetween(fraction: real, startValue: seq<real>, endValue: seq<real>)
    requires 0.0 <= fraction <= 1.0
    ensures forall i :: 0 <= i < |Evaluate(fraction, startValue, endValue)| ==>
      Between(Evaluate(fraction, startValue, endValue)[i], startValue[i], endValue[i])
  {
    var r := Evaluate(fraction, startValue, endValue);
    forall i | 0 <= i < |r| ensures Between(r[i], startValue[i], endValue[i]) {
      LerpBetween(fraction, startValue[i], endValue[i]);
    }
  }

  lemma LerpBetween(fraction: real, a: real, b: real)
    requires 0.0 <= fraction <= 1.0
    ensures Between(Lerp(fraction, a, b), a, b)
  {
    if a <= b {
      MulNonNegative(fraction, b - a);
      MulNonNegative(1.0 - fraction, b - a);
    } else {
      MulNonNegative(fraction, a - b);
      MulNonNegative(1.0 - fraction, a - b);
    }
  }

  /** Interpolation is monotone in each endpoint for a fraction in [0, 1]. */
  lemma LerpMonotone(fraction: real, a: real, b: real, c: real, d: real)
    requires 0.0 <= fraction <= 1.0
    requires a <= c && b <= d
    ensures Lerp(fraction, a, b) <= Lerp(fraction, c, d)
  {
    var g := 1.0 - fraction;
    MulNonNegative(g, c - a);
    MulNonNegative(fraction, d - b);
    assert Lerp(fraction, c, d) - Lerp(fraction, a, b) == g * (c - a) + fraction * (d - b);
  }

  /**
   * Interpolating between two ordered boundary arrays with a fraction in [0, 1]
   * gives ordered boundaries: slices never get a negative sweep mid-animation.
   */
  lemma EvaluateKeepsOrder(fraction: real, startValue: seq<real>, endValue: seq<real>)
    requires 0.0 <= fraction <= 1.0
    requires NonDecreasing(startValue) && NonDecreasing(endValue)
    ensures NonDecreasing(Evaluate(fraction, startValue, endValue))
  {
    var r := Evaluate(fraction, startValue, endValue);
    forall i, j | 0 <= i <= j < |r| ensures r[i] <= r[j] {
      LerpMonotone(fraction, startValue[i], endValue[i], startValue[j], endValue[j]);
    }
  }

  /** The examples of the repository's unit tests, including extrapolation at 2 and -1. */
  lemma EvaluateExamples()
    ensures Evaluate(0.0, [10.0, 15.0, 20.0], [20.0, 15.0, 10.0]) == [10.0, 15.0, 20.0]
    ensures Evaluate(1.0, [10.0, 15.0, 20.0], [20.0, 15.0, 10.0]) == [20.0, 15.0, 10.0]
    ensures Evaluate(0.5, [10.0, 15.0, 20.0], [20.0, 15.0, 10.0]) == [15.0, 15.0, 15.0]
    ensures Evaluate(0.25, [10.0, 15.0, 20.0], [20.0, 15.0, 10.0]) == [12.5, 15.0, 17.5]
    ensures Evaluate(2.0, [10.0, 15.0, 20.0], [20.0, 15.0, 10.0]) == [30.0, 15.0, 0.0]
    ensures Evaluate(-1.0, [10.0, 15.0, 20.0], [20.0, 15.0, 10.0]) == [0.0, 15.0, 30.0]
  {
  }

  /** A length mismatch is not an error: the longer array's tail is dropped. */
  lemma EvaluateTruncates()
    ensures Evaluate(0.5, [0.0, 1.0, 2.0], [2.0]) == [1.0]
  {
  }
}

=== FILE: Boundaries.dfy ===
/**
 * The boundary setter of the chart (`dataPointsAngles` in the current revision,
 * `dataPoints` in the two earlier ones): every array assigned to it is folded,
 * starting from its first element, into a list that drops each value equal to
 * the last one kept. Runs of equal adjacent values collapse to one element.
 */
module Boundaries {
  import opened Collections

  /** No two neighbours are equal. */
  ghost predicate NoAdjacentDuplicates(xs: seq<real>)
  {
    forall i, j :: 0 <= i < j < |xs| && j == i + 1 ==> xs[i] != xs[j]
  }

  /** Strictly increasing from left to right. */
  predicate StrictlyIncreasing(xs: seq<real>)
  {
    forall i, j :: 0 <= i < j < |xs| ==> xs[i] < xs[j]
  }

  /** `idx` picks, in increasing positions, elements of `xs` that spell out `sub`. */
  ghost predicate Embedding(sub: seq<real>, xs: seq<real>, idx: seq<nat>)
  {
    && |idx| == |sub|
    && (forall k :: 0 <= k < |idx| ==> idx[k] < |xs| && xs[idx[k]] == sub[k])
    && (forall k, l :: 0 <= k < l < |idx| && l == k + 1 ==> idx[k] < idx[l])
  }

  /** One step of the fold: keep `next` only if it differs from the last kept value. */
  function Step(output: seq<real>, next: real): (r: seq<real>)
    requires |output| > 0
    ensures |output| <= |r| && r[..|output|] == output && r[|r| - 1] == next
    ensures NoAdjacentDuplicates(output) ==> NoAdjacentDuplicates(r)
  {
    if output[|output| - 1] == next then output else output + [next]
  }

  /** The fold over `rest`, continuing from the list `output` built so far. */
  function CollapseInto(output: seq<real>, rest: seq<real>): (r: seq<real>)
    requires |output| > 0
    requires NoAdjacentDuplicates(output)
    ensures |output| <= |r| <= |output| + |rest|
    ensures r[..|output|] == output
    ensures NoAdjacentDuplicates(r)
    ensures |rest| > 0 ==> r[|r| - 1] == rest[|rest| - 1]
    ensures |rest| == 0 ==> r == output
    decreases |rest|
  {
    if |rest| == 0 then output
    else CollapseInto(Step(output, rest[0]), rest[1..])
  }

  /**
   * The setter's fold, which starts from `listOf(value.first())`. An empty array
   * makes `first()` throw, hence the precondition.
   */
  function Collapse(value: seq<real>): (r: seq<real>)
    requires |value| > 0
    ensures 0 < |r| <= |value|
    ensures r[0] == value[0]
    ensures r[|r| - 1] == value[|value| - 1]
    ensures NoAdjacentDuplicates(r)
  {
    CollapseInto([value[0]], value)
  }

  /** A list without adjacent duplicates passes through the fold unchanged. */
  lemma {:induction false} CollapseIntoKeepsDistinct(output: seq<real>, rest: seq<real>)
    requires |output| > 0 && NoAdjacentDuplicates(output) && NoAdjacentDuplicates(output + rest)
    requires |rest| > 0 ==> output[|output| - 1] != rest[0]
    ensures CollapseInto(output, rest) == output + rest
    decreases |rest|
  {
    if |rest| > 0 {
      var next := output + [rest[0]];
      assert next + rest[1..] == output + rest;
      if |rest| > 1 {
        assert (output + rest)[|output|] == rest[0];
        assert (output + rest)[|output| + 1] == rest[1];
      }
      assert NoAdjacentDuplicates(next) by {
        forall i | 0 <= i < |next| - 1 ensures next[i] != next[i + 1] {
          assert next[i] == (output + rest)[i] && next[i + 1] == (output + rest)[i + 1];
        }
      }
      CollapseIntoKeepsDistinct(next, rest[1..]);
    } else {
      assert output + rest == output;
    }
  }

  /** Arrays without adjacent duplicates are left as they are. */
  lemma CollapseFixesDistinct(value: seq<real>)
    requires |value| > 0 && NoAdjacentDuplicates(value)
    ensures Collapse(value) == value
  {
    assert [value[0]] + value[1..] == value;
    CollapseIntoStep(value);
    CollapseIntoKeepsDistinct([value[0]], value[1..]);
  }

  /** The fold's first step compares the first element with itself and keeps nothing new. */
  lemma CollapseIntoStep(value: seq<real>)
    requires |value| > 0
    ensures Collapse(value) == CollapseInto([value[0]], value[1..])
  {
    assert Step([value[0]], value[0]) == [value[0]];
  }

  /** Collapsing is idempotent. */
  lemma CollapseIdempotent(value: seq<real>)
    requires |value| > 0
    ensures Collapse(Collapse(value)) == Collapse(value)
  {
    CollapseFixesDistinct(Collapse(value));
  }

  /** The fold's result is a subsequence of `output + rest`. */
  lemma {:induction false} CollapseIntoEmbeds(output: seq<real>, rest: seq<real>) returns (idx: seq<nat>)
    requires |output| > 0 && NoAdjacentDuplicates(output)
    ensures Embedding(CollapseInto(output, rest), output + rest, idx)
    decreases |rest|
  {
    if |rest| == 0 {
      assert output + rest == output;
      idx := seq(|output|, k => k);
    } else if output[|output| - 1] == rest[0] {
      var inner := CollapseIntoEmbeds(output, rest[1..]);
      idx := EmbedsAfterDrop(output, rest, inner);
    } else {
      var inner := CollapseIntoEmbeds(output + [rest[0]], rest[1..]);
      idx := EmbedsAfterKeep(output, rest, inner);
    }
  }

  /** A fold step that drops `rest[0]` keeps the embedding, shifted past the dropped element. */
  lemma EmbedsAfterDrop(output: seq<real>, rest: seq<real>, inner: seq<nat>) returns (idx: seq<nat>)
    requires |output| > 0 && NoAdjacentDuplicates(output)
    requires |rest| > 0 && output[|output| - 1] == rest[0]
    requires Embedding(CollapseInto(output, rest[1..]), output + rest[1..], inner)
    ensures Embedding(CollapseInto(output, rest), output + rest, idx)
  {
    assert Step(output, rest[0]) == output;
    idx := SkipOne(CollapseInto(output, rest[1..]), output, rest, inner);
  }

  /** A fold step that keeps `rest[0]` keeps the embedding unchanged. */
  lemma EmbedsAfterKeep(output: seq<real>, rest: seq<real>, inner: seq<nat>) returns (idx: seq<nat>)
    requires |output| > 0 && NoAdjacentDuplicates(output)
    requires |rest| > 0 && output[|output| - 1] != rest[0]
    requires Embedding(CollapseInto(output + [rest[0]], rest[1..]), output + [rest[0]] + rest[1..], inner)
    ensures Embedding(CollapseInto(output, rest), output + rest, idx)
  {
    var next := output + [rest[0]];
    assert Step(output, rest[0]) == next;
    assert CollapseInto(output, rest) == CollapseInto(next, rest[1..]);
    MoveFirst(output, rest);
    idx := inner;
  }

  lemma MoveFirst(output: seq<real>, rest: seq<real>)
    requires |rest| > 0
    ensures output + [rest[0]] + rest[1..] == output + rest
  {
  }

  /** An embedding into `output + rest[1..]` shifted past the skipped `rest[0]`. */
  lemma SkipOne(sub: seq<real>, output: seq<real>, rest: seq<real>, inner: seq<nat>) returns (idx: seq<nat>)
    requires |rest| > 0
    requires Embedding(sub, output + rest[1..], inner)
    ensures Embedding(sub, output + rest, idx)
  {
    idx := seq(|inner|, k requires 0 <= k < |inner| => if inner[k] < |output| then inner[k] else inner[k] + 1);
    forall k | 0 <= k < |idx|
      ensures idx[k] < |output + rest| && (output + rest)[idx[k]] == sub[k]
    {
      if inner[k] >= |output| {
        assert (output + rest[1..])[inner[k]] == rest[1..][inner[k] - |output|];
      } else {
        assert (output + rest[1..])[inner[k]] == output[inner[k]];
      }
    }
  }

  /** The collapsed array is a subsequence of the assigned array. */
  lemma CollapseIsSubsequence(value: seq<real>) returns (idx: seq<nat>)
    requires |value| > 0
    ensures Embedding(Collapse(value), value, idx)
  {
    CollapseIntoStep(value);
    var inner := CollapseIntoEmbeds([value[0]], value[1..]);
    assert [value[0]] + value[1..] == value;
    idx := inner;
  }

  /** A value already kept stays kept. */
  lemma CollapseIntoKeepsOutput(output: seq<real>, rest: seq<real>, i: nat)
    requires |output| > 0 && NoAdjacentDuplicates(output)
    requires i < |output|
    ensures output[i] in CollapseInto(output, rest)
  {
    var r := CollapseInto(output, rest);
    assert r[..|output|][i] == output[i];
    assert r[i] == output[i];
  }

  /** Every value still to be folded ends up in the result. */
  lemma {:induction false} CollapseIntoKeepsRest(output: seq<real>, rest: seq<real>, i: nat)
    requires |output| > 0 && NoAdjacentDuplicates(output)
    requires i < |rest|
    ensures rest[i] in CollapseInto(output, rest)
    decreases |rest|
  {
    var next := Step(output, rest[0]);
    assert CollapseInto(output, rest) == CollapseInto(next, rest[1..]);
    if i == 0 {
      CollapseIntoKeepsOutput(next, rest[1..], |next| - 1);
    } else {
      assert rest[i] == rest[1..][i - 1];
      CollapseIntoKeepsRest(next, rest[1..], i - 1);
    }
  }

  /** Every value of the assigned array survives the collapse. */
  lemma CollapseIntoKeepsValues(output: seq<real>, rest: seq<real>)
    requires |output| > 0 && NoAdjacentDuplicates(output)
    ensures forall i :: 0 <= i < |rest| ==> rest[i] in CollapseInto(output, rest)
    ensures forall i :: 0 <= i < |output| ==> output[i] in CollapseInto(output, rest)
  {
    forall i | 0 <= i < |rest| ensures rest[i] in CollapseInto(output, rest) {
      CollapseIntoKeepsRest(output, rest, i);
    }
    forall i | 0 <= i < |output| ensures output[i] in CollapseInto(output, rest) {
      CollapseIntoKeepsOutput(output, rest, i);
    }
  }

  /** The collapse keeps every value of the assigned array, and adds none. */
  lemma CollapseSameValues(value: seq<real>)
    requires |value| > 0
    ensures forall i :: 0 <= i < |value| ==> value[i] in Collapse(value)
    ensures forall k :: 0 <= k < |Collapse(value)| ==> Collapse(value)[k] in value
  {
    CollapseIntoKeepsValues([value[0]], value);
    var idx := CollapseIsSubsequence(value);
  }

  /** Collapsing ordered boundaries yields strictly increasing boundaries. */
  lemma CollapseOrderedIsStrict(value: seq<real>)
    requires |value| > 0 && NonDecreasing(value)
    ensures StrictlyIncreasing(Collapse(value))
  {
    var r := Collapse(value);
    var idx := CollapseIsSubsequence(value);
    forall i | 0 <= i < |r| - 1 ensures r[i] < r[i + 1] {
      assert r[i] == value[idx[i]] && r[i + 1] == value[idx[i + 1]];
    }
    forall i, j | 0 <= i < j < |r| ensures r[i] < r[j] {
      StrictStep(r, i, j);
    }
  }

  lemma {:induction false} StrictStep(r: seq<real>, i: nat, j: nat)
    requires forall k :: 0 <= k < |r| - 1 ==> r[k] < r[k + 1]
    requires i < j < |r|
    ensures r[i] < r[j]
    decreases j - i
  {
    if j > i + 1 {
      StrictStep(r, i, j - 1);
    }
  }

  /** A zero value removes its slice: the boundaries of `[1, 0, 1]` collapse to two slices. */
  lemma CollapseRemovesZeroSlice()
    ensures Collapse([0.0, 0.5, 0.5, 1.0]) == [0.0, 0.5, 1.0]
  {
    assert [0.0, 0.5, 0.5, 1.0][1..] == [0.5, 0.5, 1.0];
    assert [0.5, 0.5, 1.0][1..] == [0.5, 1.0];
    assert [0.5, 1.0][1..] == [1.0];
  }
}

=== FILE: Collections.dfy ===
/**
 * List utilities that turn raw data values into cumulative slice boundaries:
 * `normalize`, `partialSums` and `withSize`. The three copies of these
 * functions in the repository are textually identical; this module models all of them.
 */
module Collections {
  import opened RealArith

  /** Sum of a list of values, folded from the left like Kotlin's `sum()`. */
  function Sum(xs: seq<real>): real
  {
    if |xs| == 0 then 0.0 else Sum(xs[..|xs| - 1]) + xs[|xs| - 1]
  }

  /** Every value is non-negative. */
  predicate AllNonNegative(xs: seq<real>)
  {
    forall i :: 0 <= i < |xs| ==> xs[i] >= 0.0
  }

  /** Values never decrease from left to right. */
  predicate NonDecreasing(xs: seq<real>)
  {
    forall i, j :: 0 <= i <= j < |xs| ==> xs[i] <= xs[j]
  }

  /** `xs` scaled by `1/total`, element by element. */
  function Scale(xs: seq<real>, total: real): (r: seq<real>)
    requires total != 0.0
    ensures |r| == |xs|
    ensures forall i :: 0 <= i < |xs| ==> r[i] == xs[i] / total
  {
    if |xs| == 0 then [] else Scale(xs[..|xs| - 1], total) + [xs[|xs| - 1] / total]
  }

  /**
   * `normalize`: divides every element by the sum when the sum is positive;
   * otherwise the list is returned unchanged (an all-zero list stays all zero).
   */
  function Normalize(xs: seq<real>): (r: seq<real>)
    ensures |r| == |xs|
    ensures Sum(xs) > 0.0 ==> forall i :: 0 <= i < |xs| ==> r[i] == xs[i] / Sum(xs)
    ensures Sum(xs) <= 0.0 ==> r == xs
  {
    var total := Sum(xs);
    if total > 0.0 then Scale(xs, total) else xs
  }

  /** Sum distributes over the per-element scaling. */
  lemma {:induction false} SumScale(xs: seq<real>, total: real)
    requires total != 0.0
    ensures Sum(Scale(xs, total)) == Sum(xs) / total
  {
    if |xs| > 0 {
      var init := xs[..|xs| - 1];
      var x := xs[|xs| - 1];
      var s := Scale(xs, total);
      SumScale(init, total);
      assert s[..|xs| - 1] == Scale(init, total);
      assert Sum(s) == Sum(Scale(init, total)) + x / total;
      DivAdd(Sum(init), x, total);
    }
  }

  /** A normalized list with a positive sum sums to exactly one. */
  lemma NormalizeSumsToOne(xs: seq<real>)
    requires Sum(xs) > 0.0
    ensures Sum(Normalize(xs)) == 1.0
  {
    ScaleBySumSumsToOne(xs, Sum(xs));
  }

  lemma ScaleBySumSumsToOne(xs: seq<real>, total: real)
    requires total > 0.0 && Sum(xs) == total
    ensures Sum(Scale(xs, total)) == 1.0
  {
    SumScale(xs, total);
  }

  /** Normalizing keeps every value non-negative when all inputs are. */
  lemma NormalizeNonNegative(xs: seq<real>)
    requires AllNonNegative(xs)
    ensures AllNonNegative(Normalize(xs))
  {
    var r := Normalize(xs);
    if Sum(xs) > 0.0 {
      forall i | 0 <= i < |xs| ensures r[i] >= 0.0 {
        assert r[i] == xs[i] / Sum(xs);
      }
    }
  }

  /** The sum of non-negative values is non-negative. */
  lemma {:induction false} SumNonNegative(xs: seq<real>)
    requires AllNonNegative(xs)
    ensures Sum(xs) >= 0.0
  {
    if |xs| > 0 {
      SumNonNegative(xs[..|xs| - 1]);
    }
  }

  /**
   * `partialSums`: a fold that starts from `[0]` and appends the running total
   * after each element.
   */
  function PartialSums(xs: seq<real>): (r: seq<real>)
    ensures |r| == |xs| + 1
    ensures r[0] == 0.0
    ensures forall i :: 0 <= i < |xs| ==> r[i + 1] == r[i] + xs[i]
  {
    if |xs| == 0 then [0.0]
    else
      var init := PartialSums(xs[..|xs| - 1]);
      init + [init[|init| - 1] + xs[|xs| - 1]]
  }

  /** Entry `i` of the partial sums is the sum of the first `i` inputs; the last is the total. */
  lemma {:induction false} PartialSumsArePrefixSums(xs: seq<real>, i: nat)
    requires i <= |xs|
    ensures PartialSums(xs)[i] == Sum(xs[..i])
  {
    if i > 0 {
      PartialSumsArePrefixSums(xs, i - 1);
      assert xs[..i][..i - 1] == xs[..i - 1];
    }
  }

  /** The last boundary equals the sum of the inputs. */
  lemma PartialSumsLastIsSum(xs: seq<real>)
    ensures PartialSums(xs)[|xs|] == Sum(xs)
  {
    PartialSumsArePrefixSums(xs, |xs|);
    assert xs[..|xs|] == xs;
  }

  /** Partial sums of non-negative values never decrease. */
  lemma PartialSumsNonDecreasing(xs: seq<real>)
    requires AllNonNegative(xs)
    ensures NonDecreasing(PartialSums(xs))
  {
    var r := PartialSums(xs);
    forall i, j | 0 <= i <= j < |r| ensures r[i] <= r[j] {
      PartialSumsStepUp(xs, i, j);
    }
  }

  lemma {:induction false} PartialSumsStepUp(xs: seq<real>, i: nat, j: nat)
    requires AllNonNegative(xs)
    requires i <= j <= |xs|
    ensures PartialSums(xs)[i] <= PartialSums(xs)[j]
    decreases j - i
  {
    if i < j {
      PartialSumsStepUp(xs, i, j - 1);
    }
  }

  /**
   * Boundaries built from a positive-sum list of values end in exactly one:
   * the last element of `partialSums(normalize(xs))` is 1.
   */
  lemma BoundariesEndAtOne(xs: seq<real>)
    requires Sum(xs) > 0.0
    ensures PartialSums(Normalize(xs))[|xs|] == 1.0
  {
    NormalizeSumsToOne(xs);
    PartialSumsLastIsSum(Normalize(xs));
  }

  /**
   * Boundary `i` built from a positive-sum list is the share of the total that
   * the first `i` values make up.
   */
  lemma BoundaryIsShare(xs: seq<real>, i: nat)
    requires Sum(xs) > 0.0 && i <= |xs|
    ensures PartialSums(Normalize(xs))[i] == Sum(xs[..i]) / Sum(xs)
  {
    NormalizePrefix(xs, i);
    PartialSumsArePrefixSums(Normalize(xs), i);
    SumScale(xs[..i], Sum(xs));
  }

  /** A prefix of the normalised list is the same prefix divided by the total. */
  lemma NormalizePrefix(xs: seq<real>, i: nat)
    requires Sum(xs) > 0.0 && i <= |xs|
    ensures Normalize(xs)[..i] == Scale(xs[..i], Sum(xs))
  {
    var n := Normalize(xs);
    var scaled := Scale(xs[..i], Sum(xs));
    forall k | 0 <= k < i ensures n[..i][k] == scaled[k] {
      assert n[k] == xs[k] / Sum(xs);
      assert xs[..i][k] == xs[k];
    }
  }

  /** Boundaries built from non-negative values never decrease and start at zero. */
  lemma BoundariesOrdered(xs: seq<real>)
    requires AllNonNegative(xs)
    ensures NonDecreasing(PartialSums(Normalize(xs)))
  {
    NormalizeNonNegative(xs);
    PartialSumsNonDecreasing(Normalize(xs));
  }

  /**
   * `withSize`: the input followed by an endless repetition of its last element
   * (or of `valueIfEmpty` when the input is empty), cut to `size` elements.
   */
  function WithSize<T>(xs: seq<T>, size: nat, valueIfEmpty: T): (r: seq<T>)
    ensures |r| == size
    ensures forall i :: 0 <= i < size && i < |xs| ==> r[i] == xs[i]
    ensures forall i :: |xs| <= i < size ==> r[i] == (if |xs| == 0 then valueIfEmpty else xs[|xs| - 1])
  {
    var fill := if |xs| == 0 then valueIfEmpty else xs[|xs| - 1];
    if size <= |xs| then xs[..size] else xs + seq(size - |xs|, _ => fill)
  }

  /** Resizing to the current length is the identity. */
  lemma WithSizeSameLength<T>(xs: seq<T>, valueIfEmpty: T)
    ensures WithSize(xs, |xs|, valueIfEmpty) == xs
  {
  }

  /** Resizing twice to the same size is the same as resizing once. */
  lemma WithSizeIdempotent<T>(xs: seq<T>, size: nat, valueIfEmpty: T)
    ensures WithSize(WithSize(xs, size, valueIfEmpty), size, valueIfEmpty) == WithSize(xs, size, valueIfEmpty)
  {
  }

  /** Padding keeps the ordering of a non-decreasing list. */
  lemma WithSizeNonDecreasing(xs: seq<real>, size: nat, valueIfEmpty: real)
    requires NonDecreasing(xs)
    ensures NonDecreasing(WithSize(xs, size, valueIfEmpty))
  {
  }

  /** The normalization examples of the repository's unit tests, with the all-zero case. */
  lemma NormalizeExamples()
    ensures Normalize([10.0, 20.0, 30.0, 40.0]) == [0.1, 0.2, 0.3, 0.4]
    ensures Normalize([1.0, 1.0, 1.0, 1.0]) == [0.25, 0.25, 0.25, 0.25]
    ensures Normalize([0.0, 0.0, 0.0]) == [0.0, 0.0, 0.0]
  {
    assert Sum([10.0, 20.0, 30.0, 40.0]) == 100.0 by {
      assert [10.0, 20.0, 30.0, 40.0][..3] == [10.0, 20.0, 30.0];
      assert [10.0, 20.0, 30.0][..2] == [10.0, 20.0];
      assert [10.0, 20.0][..1] == [10.0];
    }
    assert Sum([1.0, 1.0, 1.0, 1.0]) == 4.0 by {
      assert [1.0, 1.0, 1.0, 1.0][..3] == [1.0, 1.0, 1.0];
      assert [1.0, 1.0, 1.0][..2] == [1.0, 1.0];
      assert [1.0, 1.0][..1] == [1.0];
    }
    assert Sum([0.0, 0.0, 0.0]) == 0.0 by {
      assert [0.0, 0.0, 0.0][..2] == [0.0, 0.0];
      assert [0.0, 0.0][..1] == [0.0];
    }
  }

  /** The partial-sum examples of the repository's unit tests. */
  lemma PartialSumsExamples()
    ensures PartialSums([10.0, 20.0, 30.0, 40.0]) == [0.0, 10.0, 30.0, 60.0, 100.0]
    ensures PartialSums([1.0, 1.0, 1.0, 1.0]) == [0.0, 1.0, 2.0, 3.0, 4.0]
  {
  }

  /** The resizing examples of the repository's unit tests. */
  lemma WithSizeExamples()
    ensures WithSize([1, 2, 3], 3, 17) == [1, 2, 3]
    ensures WithSize([1, 2, 3], 2, 17) == [1, 2]
    ensures WithSize([1, 2, 3], 4, 17) == [1, 2, 3, 3]
    ensures WithSize([1, 2, 3], 5, 17) == [1, 2, 3, 3, 3]
    ensures WithSize([], 3, 17) == [17, 17, 17]
  {
  }
}

=== FILE: Colors.dfy ===
/**
 * `mixColors`: a colour between two colours, channel by channel. Each channel is
 * the linear blend `int1 * (1 - ratio) + int2 * ratio`, rounded half up.
 * Colours are four separate channels here; packing them into one `Int` is not
 * modelled.
 */
module Colors {
  import opened Numeric
  import opened ArrayTween

  datatype Argb = Argb(alpha: int, red: int, green: int, blue: int)

  /** A channel value of a packed colour. */
  predicate IsChannel(n: int)
  {
    0 <= n <= 255
  }

  predicate IsColor(c: Argb)
  {
    IsChannel(c.alpha) && IsChannel(c.red) && IsChannel(c.green) && IsChannel(c.blue)
  }

  /** Every packed `Int` colour splits into four channels in 0..255. */
  type Color = c: Argb | IsColor(c) witness Argb(0, 0, 0, 0)

  /** `Color.CYAN`, `Color.BLUE` and `Color.BLACK`, the renderers' default colours. */
  const CYAN: Color := Argb(255, 0, 255, 255)
  const BLUE: Color := Argb(255, 0, 0, 255)
  const BLACK: Color := Argb(255, 0, 0, 0)

  /**
   * `mixInts`: ratio 0 gives the first value, ratio 1 the second, and a ratio in
   * between gives a value between the two, within half a unit of the exact blend.
   */
  function MixInts(int1: int, int2: int, ratio: real): (r: int)
    requires IsInt32(int1) && IsInt32(int2)
    ensures ratio == 0.0 ==> r == int1
    ensures ratio == 1.0 ==> r == int2
    ensures 0.0 <= ratio <= 1.0 ==> (int1 <= r <= int2 || int2 <= r <= int1)
    ensures 0.0 <= ratio <= 1.0 ==> Lerp(ratio, int1 as real, int2 as real) - 0.5 < r as real <= Lerp(ratio, int1 as real, int2 as real) + 0.5
  {
    var blend := int1 as real * (1.0 - ratio) + int2 as real * ratio;
    BlendIsLerp(int1 as real, int2 as real, ratio);
    if 0.0 <= ratio <= 1.0 then
      LerpBetween(ratio, int1 as real, int2 as real);
      RoundToInt(blend)
    else
      RoundToInt(blend)
  }

  /** The source's blend is the interpolation from `a` towards `b`. */
  lemma BlendIsLerp(a: real, b: real, ratio: real)
    ensures a * (1.0 - ratio) + b * ratio == Lerp(ratio, a, b)
  {
  }

  /** `mixColors`: every channel is mixed with the same ratio. */
  function MixColors(color1: Color, color2: Color, ratio: real): (r: Argb)
    ensures ratio == 0.0 ==> r == color1
    ensures ratio == 1.0 ==> r == color2
  {
    Argb(MixInts(color1.alpha, color2.alpha, ratio),
         MixInts(color1.red, color2.red, ratio),
         MixInts(color1.green, color2.green, ratio),
         MixInts(color1.blue, color2.blue, ratio))
  }

  /** Mixing two colours with a ratio in [0, 1] gives a colour again. */
  lemma MixColorsIsColor(color1: Color, color2: Color, ratio: real)
    requires 0.0 <= ratio <= 1.0
    ensures IsColor(MixColors(color1, color2, ratio))
  {
  }

  /** Mixing a colour with itself gives it back, whatever the ratio. */
  lemma MixColorsSame(c: Color, ratio: real)
    ensures MixColors(c, c, ratio) == c
  {
    MixSame(c.alpha, ratio);
    MixSame(c.red, ratio);
    MixSame(c.green, ratio);
    MixSame(c.blue, ratio);
  }

  lemma MixSame(n: int, ratio: real)
    requires IsChannel(n)
    ensures MixInts(n, n, ratio) == n
  {
    assert n as real * (1.0 - ratio) + n as real * ratio == n as real;
    ConversionsKeepIntegers(n);
  }

  /** Halfway from black to cyan, the rounding goes up: 127.5 becomes 128. */
  lemma MixColorsExample()
    ensures MixColors(BLACK, CYAN, 0.5) == Argb(255, 0, 128, 128)
    ensures MixColors(CYAN, BLUE, 0.25) == Argb(255, 0, 191, 255)
  {
  }
}

=== FILE: DonutPath.dfy ===
/**
 * `PathProvider.donutSlice`: the outline of one ring sector, built from an
 * outer arc running forwards and an inner arc running back, each shortened at
 * both ends by an angular padding. `anglePadding` turns a padding length into
 * the angle that half of it subtends on the given radius. The source calls the
 * `common` package's `radToDeg`, which scales the wrong way. Both are
 * modelled: `DonutSliceAsWritten` pads with that conversion and `DonutSlice`
 * with the intended one.
 */
module DonutPath {
  import opened Options
  import opened Angles
  import opened Rects

  /** `arcTo(oval, startAngle, sweepAngle)`, angles in degrees. */
  datatype Arc = Arc(oval: RectF, startAngle: real, sweepAngle: real)

  /** The path: the outer arc, then the inner arc, then `close()`. */
  datatype Slice = Slice(outer: Arc, inner: Arc)

  /** Where an arc stops. */
  function ArcEnd(a: Arc): real
  {
    a.startAngle + a.sweepAngle
  }

  /**
   * `anglePadding` as written: `(padding / radius).radToDeg() / 2`, with the
   * `common` `radToDeg`, which converts the ratio as if it were degrees.
   */
  function AnglePaddingAsWritten(padding: real, radius: real): (pad: real)
    requires radius != 0.0
    ensures pad == DegToRad(padding / radius) / 2.0
  {
    CommonRadToDeg(padding / radius) / 2.0
  }

  /**
   * `anglePadding` with the graphics `radToDeg`: the arc that `pad` degrees cut
   * out of a circle of this radius is half the padding long.
   */
  function AnglePadding(padding: real, radius: real): (pad: real)
    requires radius != 0.0
    ensures DegToRad(pad) * radius == padding / 2.0
  {
    RadDegRoundTrip(padding / radius);
    RadToDeg(padding / radius) / 2.0
  }

  /**
   * As written, the padded arc is shorter than half the padding by the factor
   * (2π/360)², for every non-zero padding.
   */
  lemma AnglePaddingAsWrittenMisses(padding: real, radius: real)
    requires radius != 0.0 && padding != 0.0
    ensures DegToRad(AnglePaddingAsWritten(padding, radius)) * radius != padding / 2.0
  {
    var k := DOUBLE_PI / FULL_ANGLE;
    assert 0.0 < k < 1.0;
    var pad := AnglePaddingAsWritten(padding, radius);
    assert pad == (padding / radius) * k / 2.0;
    assert DegToRad(pad) == pad * k;
    assert DegToRad(pad) * radius == (padding / 2.0) * (k * k);
    assert k * k < 1.0;
  }

  /** A padding of 10 on radius 100: about 0.0009 degrees as written, about 2.865 intended. */
  lemma AnglePaddingExample()
    ensures AnglePaddingAsWritten(10.0, 100.0) < 0.001
    ensures 2.86 < AnglePadding(10.0, 100.0) < 2.87
  {
  }

  /**
   * The two arcs for given angular paddings: the outer arc runs from
   * `startAngle + outerPadding` to `endAngle - outerPadding` on the outer oval, the
   * inner arc back from `endAngle - innerPadding` to `startAngle + innerPadding`
   * on the inner oval, both ovals centred at `(cx, cy)`.
   */
  function SliceArcs(p: RectFProvider, cx: real, cy: real, startAngle: real, endAngle: real,
                     innerRadius: real, outerRadius: real, outerPadding: real, innerPadding: real): (s: Slice)
    ensures CenterX(s.outer.oval) == cx && CenterY(s.outer.oval) == cy && Width(s.outer.oval) == 2.0 * outerRadius
    ensures CenterX(s.inner.oval) == cx && CenterY(s.inner.oval) == cy && Width(s.inner.oval) == 2.0 * innerRadius
    ensures s.outer.startAngle == startAngle + outerPadding && ArcEnd(s.outer) == endAngle - outerPadding
    ensures s.inner.startAngle == endAngle - innerPadding && ArcEnd(s.inner) == startAngle + innerPadding
  {
    var sweepAngle := endAngle - startAngle;
    Slice(Arc(OvalF(p, cx, cy, outerRadius).value, startAngle + outerPadding, sweepAngle - 2.0 * outerPadding),
          Arc(OvalF(p, cx, cy, innerRadius).value, endAngle - innerPadding, -sweepAngle + 2.0 * innerPadding))
  }

  /** Without padding the outer arc covers exactly the slice and the inner arc retraces it backwards. */
  lemma UnpaddedSliceRetraces(p: RectFProvider, cx: real, cy: real, startAngle: real, endAngle: real,
                              innerRadius: real, outerRadius: real)
    ensures var s := SliceArcs(p, cx, cy, startAngle, endAngle, innerRadius, outerRadius, 0.0, 0.0);
      s.outer.startAngle == startAngle && ArcEnd(s.outer) == endAngle &&
      s.inner.startAngle == ArcEnd(s.outer) && ArcEnd(s.inner) == s.outer.startAngle &&
      s.inner.sweepAngle == -s.outer.sweepAngle
  {
  }

  /**
   * `donutSlice`, with the intended padding. A zero radius makes the float
   * division in `anglePadding` non-finite; the path the source then builds
   * from non-finite angles is not modelled, and the result is `None`.
   */
  function DonutSlice(p: RectFProvider, cx: real, cy: real, startAngle: real, endAngle: real,
                      innerRadius: real, outerRadius: real, padding: real): (r: Option<Slice>)
    ensures r.Some? <==> innerRadius != 0.0 && outerRadius != 0.0
    ensures r.Some? ==> r.value.outer.startAngle - startAngle == endAngle - ArcEnd(r.value.outer)
    ensures r.Some? ==> DegToRad(r.value.outer.startAngle - startAngle) * outerRadius == padding / 2.0
    ensures r.Some? ==> DegToRad(ArcEnd(r.value.inner) - startAngle) * innerRadius == padding / 2.0
    ensures r.Some? ==> DegToRad(endAngle - r.value.inner.startAngle) * innerRadius == padding / 2.0
    ensures r.Some? ==> r.value == SliceArcs(p, cx, cy, startAngle, endAngle, innerRadius, outerRadius,
                                             AnglePadding(padding, outerRadius), AnglePadding(padding, innerRadius))
  {
    if innerRadius == 0.0 || outerRadius == 0.0 then None
    else
      Some(SliceArcs(p, cx, cy, startAngle, endAngle, innerRadius, outerRadius,
                     AnglePadding(padding, outerRadius), AnglePadding(padding, innerRadius)))
  }

  /** `donutSlice` as written, with the `common` conversion in `anglePadding`. */
  function DonutSliceAsWritten(p: RectFProvider, cx: real, cy: real, startAngle: real, endAngle: real,
                               innerRadius: real, outerRadius: real, padding: real): (r: Option<Slice>)
    ensures r.Some? <==> innerRadius != 0.0 && outerRadius != 0.0
    ensures r.Some? ==> r.value.outer.startAngle == startAngle + AnglePaddingAsWritten(padding, outerRadius)
    ensures r.Some? ==> r.value == SliceArcs(p, cx, cy, startAngle, endAngle, innerRadius, outerRadius,
                                             AnglePaddingAsWritten(padding, outerRadius), AnglePaddingAsWritten(padding, innerRadius))
  {
    if innerRadius == 0.0 || outerRadius == 0.0 then None
    else
      Some(SliceArcs(p, cx, cy, startAngle, endAngle, innerRadius, outerRadius,
                     AnglePaddingAsWritten(padding, outerRadius), AnglePaddingAsWritten(padding, innerRadius)))
  }

  /**
   * Two neighbouring slices `[a, b]` and `[b, c]` on the same ring leave a gap
   * on the outer edge whose arc length is the whole padding.
   */
  lemma NeighboursGapIsPadding(p: RectFProvider, cx: real, cy: real, a: real, b: real, c: real,
                               innerRadius: real, outerRadius: real, padding: real)
    requires innerRadius != 0.0 && outerRadius != 0.0
    ensures var first := DonutSlice(p, cx, cy, a, b, innerRadius, outerRadius, padding).value;
      var second := DonutSlice(p, cx, cy, b, c, innerRadius, outerRadius, padding).value;
      DegToRad(second.outer.startAngle - ArcEnd(first.outer)) * outerRadius == padding
  {
    var pad := AnglePadding(padding, outerRadius);
    assert DegToRad(2.0 * pad) * outerRadius == 2.0 * (DegToRad(pad) * outerRadius);
  }

  /** As written, the gap between neighbours is not the padding, unless the padding is 0. */
  lemma NeighboursGapAsWritten(p: RectFProvider, cx: real, cy: real, a: real, b: real, c: real,
                               innerRadius: real, outerRadius: real, padding: real)
    requires innerRadius != 0.0 && outerRadius != 0.0 && padding != 0.0
    ensures var first := DonutSliceAsWritten(p, cx, cy, a, b, innerRadius, outerRadius, padding).value;
      var second := DonutSliceAsWritten(p, cx, cy, b, c, innerRadius, outerRadius, padding).value;
      DegToRad(second.outer.startAngle - ArcEnd(first.outer)) * outerRadius != padding
  {
    var pad := AnglePaddingAsWritten(padding, outerRadius);
    AnglePaddingAsWrittenMisses(padding, outerRadius);
    assert DegToRad(2.0 * pad) * outerRadius == 2.0 * (DegToRad(pad) * outerRadius);
  }
}

=== FILE: HitTest.dfy ===
/**
 * The pointer hit test of `onTouchEvent`: the pointer angle, measured from the
 * chart's rotation and divided by a full turn, is wrapped into [0, 1) by two
 * counting loops, and the selected index is the last boundary not above it
 * (`indexOfLast`). The angle itself comes from `atan2`, which is not modelled:
 * the test starts from the angle.
 */
module HitTest {
  import opened Angles

  /** The wrapped value: the unique number in [0, 1) that differs from `v` by a whole number. */
  function Fraction(v: real): (r: real)
    ensures 0.0 <= r < 1.0
    ensures (v - r).Floor as real == v - r
  {
    v - v.Floor as real
  }

  /** Shifting by whole turns does not change the wrapped value. */
  lemma FractionPeriodic(v: real, k: int)
    ensures Fraction(v + k as real) == Fraction(v)
  {
    assert (v + k as real).Floor == v.Floor + k;
  }

  /**
   * The loops `while (value < 0) value++` and `while (value >= 1) value--`:
   * whole turns are added or removed until the value lies in [0, 1).
   */
  method Wrap(v: real) returns (value: real)
    ensures value == Fraction(v)
  {
    value := v;
    ghost var turns: int := 0;
    while value < 0.0
      invariant value == v + turns as real
      decreases -value.Floor
    {
      value := value + 1.0;
      turns := turns + 1;
    }
    while value >= 1.0
      invariant value == v + turns as real
      invariant value >= 0.0
      decreases value.Floor
    {
      value := value - 1.0;
      turns := turns - 1;
    }
    FractionPeriodic(v, turns);
    assert Fraction(value) == value;
  }

  /**
   * `indexOfLast { value >= it }`: the largest index whose boundary is at most
   * `value`, or -1 when there is none.
   */
  function LastAtMost(b: seq<real>, value: real): (i: int)
    ensures -1 <= i < |b|
    ensures i >= 0 ==> b[i] <= value
    ensures forall j :: i < j < |b| ==> value < b[j]
  {
    if |b| == 0 then -1
    else if value >= b[|b| - 1] then |b| - 1
    else
      var i := LastAtMost(b[..|b| - 1], value);
      assert forall j :: i < j < |b| - 1 ==> b[j] == b[..|b| - 1][j];
      i
  }

  /** The three properties of `LastAtMost` pin the index down. */
  lemma LastAtMostUnique(b: seq<real>, value: real, i: int)
    requires -1 <= i < |b|
    requires i >= 0 ==> b[i] <= value
    requires forall j :: i < j < |b| ==> value < b[j]
    ensures i == LastAtMost(b, value)
  {
  }

  /** `indexOfLast` as Kotlin runs it: a scan from the last index down to the first match. */
  method IndexOfLast(b: seq<real>, value: real) returns (i: int)
    ensures i == LastAtMost(b, value)
  {
    i := |b| - 1;
    while i >= 0 && !(value >= b[i])
      invariant -1 <= i < |b|
      invariant forall j :: i < j < |b| ==> value < b[j]
    {
      i := i - 1;
    }
    LastAtMostUnique(b, value, i);
  }

  /**
   * The selected index for a pointer at `angle` degrees on a chart rotated by
   * `rotationAngle` degrees, with slice boundaries `b` given as fractions of a turn.
   */
  function HitIndex(b: seq<real>, angle: real, rotationAngle: real): (i: int)
    ensures -1 <= i < |b|
  {
    LastAtMost(b, Fraction((angle - rotationAngle) / FULL_ANGLE))
  }

  /** The hit test with the source's loops. */
  method Touch(b: seq<real>, angle: real, rotationAngle: real) returns (i: int)
    ensures i == HitIndex(b, angle, rotationAngle)
  {
    var value := Wrap((angle - rotationAngle) / FULL_ANGLE);
    i := IndexOfLast(b, value);
  }

  /**
   * Boundaries that start at 0 and end at 1 always yield a drawn slice, and the
   * pointer's fraction of a turn lies inside that slice.
   */
  lemma HitIndexInDrawnSlice(b: seq<real>, angle: real, rotationAngle: real)
    requires |b| > 0 && b[0] == 0.0 && b[|b| - 1] == 1.0
    ensures 0 <= HitIndex(b, angle, rotationAngle) < |b| - 1
    ensures b[HitIndex(b, angle, rotationAngle)] <= Fraction((angle - rotationAngle) / FULL_ANGLE)
    ensures Fraction((angle - rotationAngle) / FULL_ANGLE) < b[HitIndex(b, angle, rotationAngle) + 1]
  {
  }

  /** A first boundary of 0 keeps the result non-negative. */
  lemma HitIndexNonNegative(b: seq<real>, angle: real, rotationAngle: real)
    requires |b| > 0 && b[0] == 0.0
    ensures HitIndex(b, angle, rotationAngle) >= 0
  {
  }

  /** Pointer angles that differ by whole turns select the same index. */
  lemma HitIndexPeriodic(b: seq<real>, angle: real, rotationAngle: real, turns: int)
    ensures HitIndex(b, angle + FULL_ANGLE * turns as real, rotationAngle) == HitIndex(b, angle, rotationAngle)
  {
    var v := (angle - rotationAngle) / FULL_ANGLE;
    assert (angle + FULL_ANGLE * turns as real - rotationAngle) / FULL_ANGLE == v + turns as real;
    FractionPeriodic(v, turns);
  }

  /**
   * The index can be the last boundary, which starts no drawn slice: with no data
   * the boundaries are `[0]`, and mid-animation they may end below 1.
   */
  lemma HitIndexMayBeUndrawn(angle: real, rotationAngle: real)
    ensures HitIndex([0.0], angle, rotationAngle) == 0
    ensures HitIndex([0.0, 0.5], 270.0, 0.0) == 1
  {
    assert Fraction(270.0 / FULL_ANGLE) == 0.75;
    LastAtMostUnique([0.0, 0.5], 0.75, 1);
  }

  /** Boundaries `[0, 0.25, 0.5, 1]`: 200 degrees falls in the third slice, also after rotation. */
  lemma HitIndexExamples()
    ensures HitIndex([0.0, 0.25, 0.5, 1.0], 200.0, 0.0) == 2
    ensures HitIndex([0.0, 0.25, 0.5, 1.0], 20.0, 180.0) == 2
    ensures HitIndex([0.0, 0.25, 0.5, 1.0], -270.0, 0.0) == 1
  {
    var b := [0.0, 0.25, 0.5, 1.0];
    assert Fraction(200.0 / FULL_ANGLE) == 200.0 / 360.0;
    assert Fraction((20.0 - 180.0) / FULL_ANGLE) == 200.0 / 360.0;
    LastAtMostUnique(b, 200.0 / 360.0, 2);
    assert Fraction(-270.0 / FULL_ANGLE) == 0.25;
    LastAtMostUnique(b, 0.25, 1);
  }

  /**
   * The earliest revision's hit test, as written: `atan2` gives radians, and the
   * conversion it imports is the `common` package's `radToDeg`, which scales by 2π/360.
   */
  function EarliestHitIndexAsWritten(b: seq<real>, radians: real, rotationAngle: real): (i: int)
    ensures -1 <= i < |b|
    ensures i == HitIndex(b, DegToRad(radians), rotationAngle)
  {
    LastAtMost(b, Fraction((CommonRadToDeg(radians) - rotationAngle) / FULL_ANGLE))
  }

  /** The earliest revision's hit test with the graphics `radToDeg` (360/2π). */
  function EarliestHitIndex(b: seq<real>, radians: real, rotationAngle: real): (i: int)
    ensures -1 <= i < |b|
  {
    LastAtMost(b, Fraction((RadToDeg(radians) - rotationAngle) / FULL_ANGLE))
  }

  /** With the intended conversion, a pointer at `degrees` selects what the later revisions select. */
  lemma EarliestHitIndexAgrees(b: seq<real>, degrees: real, rotationAngle: real)
    ensures EarliestHitIndex(b, DegToRad(degrees), rotationAngle) == HitIndex(b, degrees, rotationAngle)
  {
    RadDegRoundTrip(degrees);
  }

  /**
   * As written, a pointer straight below the centre (π/2 radians, 90 degrees) on
   * boundaries `[0, 0.25, 0.5, 1]` selects slice 0 instead of slice 1.
   */
  lemma EarliestHitIndexMisreads()
    ensures EarliestHitIndexAsWritten([0.0, 0.25, 0.5, 1.0], PI / 2.0, 0.0) == 0
    ensures EarliestHitIndex([0.0, 0.25, 0.5, 1.0], PI / 2.0, 0.0) == 1
  {
    var b := [0.0, 0.25, 0.5, 1.0];
    var small := CommonRadToDeg(PI / 2.0) / FULL_ANGLE;
    assert 0.0 < small < 0.25;
    assert Fraction(small) == small;
    LastAtMostUnique(b, small, 0);
    assert RadToDeg(PI / 2.0) == 90.0;
    assert Fraction(90.0 / FULL_ANGLE) == 0.25;
    LastAtMostUnique(b, 0.25, 1);
  }
}

=== FILE: IntArith.dfy ===
/** Facts about integer multiplication and remainder that the solver does not find unaided. */
module IntArith {

  lemma {:induction false} MulAtLeast(a: int, d: int)
    requires a >= 1 && d > 0
    ensures a * d >= d
  {
    if a > 1 {
      MulAtLeast(a - 1, d);
      assert a * d == (a - 1) * d + d;
    }
  }

  /** A non-zero multiple of a positive `d` is at least `d` away from 0. */
  lemma MulSign(k: int, d: int)
    requires d > 0
    ensures k >= 1 ==> k * d >= d
    ensures k <= -1 ==> k * d <= -d
  {
    if k >= 1 {
      MulAtLeast(k, d);
    }
    if k <= -1 {
      MulAtLeast(-k, d);
      assert k * d == -((-k) * d);
    }
  }

  /** The remainder is the unique value in [0, d) that differs from `n` by a multiple of `d`. */
  lemma ModUnique(n: int, d: int, q: int, m: int)
    requires d > 0 && 0 <= m < d && n == q * d + m
    ensures n % d == m
  {
    var q' := n / d;
    var m' := n % d;
    assert n == q' * d + m';
    assert (q - q') * d == q * d - q' * d;
    MulSign(q - q', d);
  }

  /** Adding the divisor does not change the remainder. */
  lemma ModAddDivisor(n: nat, d: nat)
    requires d > 0
    ensures (n + d) % d == n % d
  {
    var q := n / d;
    var m := n % d;
    assert n + d == (q + 1) * d + m;
    ModUnique(n + d, d, q + 1, m);
  }
}

=== FILE: Labels.dfy ===
/**
 * Slice labels: whether a label is drawn, where its text goes, and how much
 * room the chart leaves around itself for the labels. The label's text is
 * measured by the platform; the model takes the measured width and height as
 * part of the label. The labels UI of both revisions and the label delegate
 * share this arithmetic.
 */
module Labels {
  import opened Options
  import opened Angles
  import opened Numeric
  import opened Rects

  /** A label's text with the integer width and height `getTextBounds` measured for it. */
  datatype Label = Label(text: string, width: int, height: int)

  /**
   * `labelPosition` (0 centres the text on the slice's edge, 1 puts it just
   * outside), `labelSpacing` and `labelMinPercent`.
   */
  datatype LabelStyle = LabelStyle(position: int, spacing: real, minPercent: int)

  /** The defaults: position 1, spacing 0, no minimum. */
  const DefaultLabelStyle: LabelStyle := LabelStyle(1, 0.0, 0)

  /** A canvas translation. */
  datatype Offset = Offset(dx: real, dy: real)

  /** `drawText(text, x, y)` on a canvas translated by `translation`; `y` is the baseline. */
  datatype TextDraw = TextDraw(text: string, x: real, y: real, translation: Offset)

  /** `applyFrom` of the delegate: the three label settings are taken over as given. */
  function ApplyFrom(style: LabelStyle, position: int, spacing: real, minPercent: int): (s: LabelStyle)
    ensures s.position == position && s.spacing == spacing && s.minPercent == minPercent
  {
    style.(position := position, spacing := spacing, minPercent := minPercent)
  }

  /** The share of a full turn a slice spans, in percent. */
  function SpanPercent(startAngle: real, endAngle: real): real
  {
    (endAngle - startAngle) / FULL_ANGLE * 100.0
  }

  /** A label is drawn when there is one and its slice spans at least `minPercent` percent. */
  predicate Visible(style: LabelStyle, startAngle: real, endAngle: real, caption: Option<Label>)
  {
    caption.Some? && SpanPercent(startAngle, endAngle) >= style.minPercent as real
  }

  /** The distance from the centre at which the label is anchored. */
  function AnchorRadius(style: LabelStyle, radius: real): (r: real)
    ensures style.position == 0 ==> r == radius
    ensures style.position > 0 && style.spacing >= 0.0 ==> r >= radius
  {
    radius + style.spacing * style.position as real
  }

  /** Half the measured width, as a float. */
  function HalfWidth(caption: Label): real
  {
    caption.width as real / 2.0
  }

  /** Half the measured height, as a float. */
  function HalfHeight(caption: Label): real
  {
    caption.height as real / 2.0
  }

  /** The centre of the box a text of this size covers when drawn at `(x, y)`, `y` being the baseline. */
  function BoxCenterX(t: TextDraw, caption: Label): real
  {
    t.x + HalfWidth(caption)
  }

  function BoxCenterY(t: TextDraw, caption: Label): real
  {
    t.y - HalfHeight(caption)
  }

  /**
   * The text placement for a visible label: the text box is centred on the
   * slice's bisector, pushed out from the anchor radius by `position` times
   * half the text's extent along each axis. `cos` and `sin` stand for the
   * platform's trigonometric functions, applied to radians.
   */
  function PlaceLabel(style: LabelStyle, cx: real, cy: real, radius: real, startAngle: real, endAngle: real,
                      caption: Label, translation: Offset, cos: real -> real, sin: real -> real): (t: TextDraw)
    ensures t.text == caption.text && t.translation == translation
    ensures BoxCenterX(t, caption) == cx + (AnchorRadius(style, radius) + HalfWidth(caption) * style.position as real) * cos(DegToRad((startAngle + endAngle) / 2.0))
    ensures BoxCenterY(t, caption) == cy + (AnchorRadius(style, radius) + HalfHeight(caption) * style.position as real) * sin(DegToRad((startAngle + endAngle) / 2.0))
  {
    var midAngle := (startAngle + endAngle) / 2.0;
    var midAngleCos := cos(DegToRad(midAngle));
    var midAngleSin := sin(DegToRad(midAngle));
    var anchorRadius := AnchorRadius(style, radius);
    var textCX := cx + (anchorRadius + HalfWidth(caption) * style.position as real) * midAngleCos;
    var textCY := cy + (anchorRadius + HalfHeight(caption) * style.position as real) * midAngleSin;
    TextDraw(caption.text, textCX - HalfWidth(caption), textCY + HalfHeight(caption), translation)
  }

  /**
   * `draw`: the text of a visible label, placed on the bisector; nothing for a
   * missing label or a slice below the minimum percent.
   */
  function DrawLabel(style: LabelStyle, cx: real, cy: real, radius: real, startAngle: real, endAngle: real,
                     caption: Option<Label>, translation: Offset, cos: real -> real, sin: real -> real): (r: Option<TextDraw>)
    ensures r.Some? <==> Visible(style, startAngle, endAngle, caption)
    ensures r.Some? ==> r.value == PlaceLabel(style, cx, cy, radius, startAngle, endAngle, caption.value, translation, cos, sin)
  {
    if caption.Some? && SpanPercent(startAngle, endAngle) >= style.minPercent as real then
      Some(PlaceLabel(style, cx, cy, radius, startAngle, endAngle, caption.value, translation, cos, sin))
    else
      None
  }

  /** With position 0 the text is centred on the slice's edge, on the bisector. */
  lemma CenteredOnEdge(style: LabelStyle, cx: real, cy: real, radius: real, startAngle: real, endAngle: real,
                       caption: Label, translation: Offset, cos: real -> real, sin: real -> real)
    requires style.position == 0
    ensures var t := PlaceLabel(style, cx, cy, radius, startAngle, endAngle, caption, translation, cos, sin);
      var a := DegToRad((startAngle + endAngle) / 2.0);
      BoxCenterX(t, caption) == cx + radius * cos(a) && BoxCenterY(t, caption) == cy + radius * sin(a)
  {
  }

  /**
   * With position 1 and a slice whose bisector points right (cosine 1, sine 0),
   * the text starts exactly `spacing` beyond the slice's edge and is vertically
   * centred on the chart's centre line.
   */
  lemma OutsideLabelClearsSlice(style: LabelStyle, cx: real, cy: real, radius: real, startAngle: real, endAngle: real,
                                caption: Label, translation: Offset, cos: real -> real, sin: real -> real)
    requires style.position == 1
    requires cos(DegToRad((startAngle + endAngle) / 2.0)) == 1.0 && sin(DegToRad((startAngle + endAngle) / 2.0)) == 0.0
    ensures var t := PlaceLabel(style, cx, cy, radius, startAngle, endAngle, caption, translation, cos, sin);
      t.x == cx + radius + style.spacing && BoxCenterY(t, caption) == cy
  {
  }

  /** With the default style every label of a slice with a non-negative span is drawn. */
  lemma DefaultsDrawEveryLabel(startAngle: real, endAngle: real, caption: Label)
    ensures Visible(DefaultLabelStyle, startAngle, endAngle, Some(caption)) <==> startAngle <= endAngle
  {
  }

  /** A slice of a tenth of a turn is 10 percent: drawn at minimum 10, hidden at 11. */
  lemma ThresholdExample(caption: Label)
    ensures Visible(LabelStyle(1, 0.0, 10), 0.0, 36.0, Some(caption))
    ensures !Visible(LabelStyle(1, 0.0, 11), 0.0, 36.0, Some(caption))
    ensures !Visible(DefaultLabelStyle, 0.0, 36.0, None)
  {
  }

  function Max(a: real, b: real): real
  {
    if a >= b then a else b
  }

  /**
   * The horizontal room labels need: the largest `width + spacing` over the
   * labels, and 0 when that is larger or there are no labels.
   */
  function HorizontalPadding(labels: seq<Label>, spacing: real): (h: real)
    ensures h >= 0.0
    ensures forall i :: 0 <= i < |labels| ==> labels[i].width as real + spacing <= h
    ensures h == 0.0 || exists i :: 0 <= i < |labels| && h == labels[i].width as real + spacing
  {
    if |labels| == 0 then 0.0
    else
      var h := HorizontalPadding(labels[..|labels| - 1], spacing);
      assert forall i :: 0 <= i < |labels| - 1 ==> labels[..|labels| - 1][i] == labels[i];
      Max(h, labels[|labels| - 1].width as real + spacing)
  }

  /** The vertical room labels need: the largest `height + spacing`, at least 0. */
  function VerticalPadding(labels: seq<Label>, spacing: real): (v: real)
    ensures v >= 0.0
    ensures forall i :: 0 <= i < |labels| ==> labels[i].height as real + spacing <= v
    ensures v == 0.0 || exists i :: 0 <= i < |labels| && v == labels[i].height as real + spacing
  {
    if |labels| == 0 then 0.0
    else
      var v := VerticalPadding(labels[..|labels| - 1], spacing);
      assert forall i :: 0 <= i < |labels| - 1 ==> labels[..|labels| - 1][i] == labels[i];
      Max(v, labels[|labels| - 1].height as real + spacing)
  }

  /**
   * `applyLabelsPadding`: nothing happens for a position of 0 or below;
   * otherwise one pass over the labels finds the largest extents and the chart
   * rectangle is inset by their rounded values.
   */
  method ApplyLabelsPadding(style: LabelStyle, labels: seq<Label>, pieChartRect: Rect) returns (r: Rect)
    ensures style.position <= 0 ==> r == pieChartRect
    ensures style.position > 0 ==>
      r == Inset(pieChartRect, RoundToInt(HorizontalPadding(labels, style.spacing)), RoundToInt(VerticalPadding(labels, style.spacing)))
  {
    if style.position <= 0 {
      return pieChartRect;
    }
    var horizontalPadding := 0.0;
    var verticalPadding := 0.0;
    var i := 0;
    while i < |labels|
      invariant 0 <= i <= |labels|
      invariant horizontalPadding == HorizontalPadding(labels[..i], style.spacing)
      invariant verticalPadding == VerticalPadding(labels[..i], style.spacing)
    {
      assert labels[..i + 1][..i] == labels[..i];
      horizontalPadding := Max(horizontalPadding, labels[i].width as real + style.spacing);
      verticalPadding := Max(verticalPadding, labels[i].height as real + style.spacing);
      i := i + 1;
    }
    assert labels[..i] == labels;
    r := Inset(pieChartRect, RoundToInt(horizontalPadding), RoundToInt(verticalPadding));
  }

  /** Without labels the paddings are 0 and the rectangle keeps its edges. */
  lemma NoLabelsNoPadding(spacing: real, pieChartRect: Rect)
    ensures HorizontalPadding([], spacing) == 0.0 && VerticalPadding([], spacing) == 0.0
    ensures Inset(pieChartRect, RoundToInt(0.0), RoundToInt(0.0)) == pieChartRect
  {
  }

  /** Labels 30 by 10 and 50 by 8 with spacing 4 need 54 across and 14 down. */
  lemma PaddingExample()
    ensures HorizontalPadding([Label("25", 30, 10), Label("75", 50, 8)], 4.0) == 54.0
    ensures VerticalPadding([Label("25", 30, 10), Label("75", 50, 8)], 4.0) == 14.0
  {
    var labels := [Label("25", 30, 10), Label("75", 50, 8)];
    assert labels[..1] == [Label("25", 30, 10)];
    assert [Label("25", 30, 10)][..0] == [];
  }
}

=== FILE: Numeric.dfy ===
/**
 * Kotlin's conversions from `Float` to `Int`, over the reals: `toInt` rounds
 * toward zero and `roundToInt` rounds half up, and both saturate at the bounds
 * of a 32-bit `Int`.
 */
module Numeric {

  const INT_MIN: int := -0x8000_0000
  const INT_MAX: int := 0x7FFF_FFFF

  /** A 32-bit `Int` value. */
  predicate IsInt32(n: int)
  {
    INT_MIN <= n <= INT_MAX
  }

  /** Saturation at the bounds of a 32-bit `Int`. */
  function Saturate(n: int): (r: int)
    ensures IsInt32(r)
    ensures IsInt32(n) ==> r == n
    ensures n < INT_MIN ==> r == INT_MIN
    ensures n > INT_MAX ==> r == INT_MAX
  {
    if n < INT_MIN then INT_MIN else if n > INT_MAX then INT_MAX else n
  }

  /** Rounding toward zero: the integer part, with the sign of `x`. */
  function Truncate(x: real): (n: int)
    ensures x >= 0.0 ==> 0 <= n && n as real <= x < n as real + 1.0
    ensures x < 0.0 ==> n <= 0 && n as real - 1.0 < x <= n as real
  {
    if x >= 0.0 then x.Floor else -((-x).Floor)
  }

  /** `Float.toInt()`. */
  function ToInt(x: real): (n: int)
    ensures IsInt32(n)
    ensures IsInt32(Truncate(x)) ==> n == Truncate(x)
  {
    Saturate(Truncate(x))
  }

  /** `Float.roundToInt()`: the nearest integer, halves rounded up, saturated. */
  function RoundToInt(x: real): (n: int)
    ensures IsInt32(n)
    ensures INT_MIN as real <= x <= INT_MAX as real ==> x - 0.5 < n as real <= x + 0.5
  {
    Saturate((x + 0.5).Floor)
  }

  /** Whole numbers survive both conversions unchanged. */
  lemma ConversionsKeepIntegers(n: int)
    requires IsInt32(n)
    ensures ToInt(n as real) == n
    ensures RoundToInt(n as real) == n
  {
  }

  /** Rounding half up: 2.5 becomes 3 and -2.5 becomes -2, while truncation gives 2 and -2. */
  lemma ConversionExamples()
    ensures RoundToInt(2.5) == 3 && RoundToInt(-2.5) == -2 && RoundToInt(2.4) == 2
    ensures ToInt(2.9) == 2 && ToInt(-2.9) == -2
  {
  }
}

=== FILE: Options.dfy ===
/** Optional values: `None` stands for Kotlin's `null` or for an operation that throws. */
module Options {

  datatype Option<+T> = None | Some(value: T) {

    /** The wrapped value, or `default` when there is none (Kotlin's `?:`). */
    function GetOr(default: T): T {
      match this
      case Some(v) => v
      case None => default
    }
  }
}

=== FILE: PieChart.dfy ===
/**
 * The state transitions of the `PieChart` view, as pure functions on a `Chart`
 * value: data-set changes, animation frames, the touch hit test, selection and
 * its listeners, and the per-slice arguments handed to the renderers.
 *
 * An animation is represented by its start and end arrays; the platform's
 * animator applies `Evaluate(fraction, start, end)` at fractions it chooses,
 * and each frame here is one such assignment.
 */
module PieChart {
  import opened Options
  import opened Collections
  import opened ArrayTween
  import opened Boundaries
  import opened HitTest
  import opened Angles
  import opened RealArith

  /** Selection listeners are identified by an opaque number. */
  type Listener = nat

  /** One synchronous call `onSelectionChangedListener(view, old, new)`. */
  datatype SelectionCall = SelectionCall(listener: Listener, oldIndex: int, newIndex: int)

  /** The two arrays a `ValueAnimator` with the array evaluator runs between. */
  datatype Animation = Animation(start: seq<real>, end: seq<real>)

  /**
   * The chart's state: slice boundaries as fractions of a turn
   * (`dataPointsAngles`), per-slice selection amounts (`selections`), the
   * selected index, the registered listeners in order, and the log of listener
   * calls made so far.
   */
  datatype Chart = Chart(
    boundaries: seq<real>,
    selections: seq<real>,
    selectionIndex: int,
    listeners: seq<Listener>,
    calls: seq<SelectionCall>)

  /** A selection change: the new chart and the selection animation it starts. */
  datatype Transition = Transition(chart: Chart, animation: Animation)

  /** The state every chart is built in: one boundary at 0, nothing selected. */
  function Initial(): (c: Chart)
    ensures c.boundaries == [0.0] && c.selections == [0.0]
    ensures c.selectionIndex == -1 && c.listeners == [] && c.calls == []
  {
    Chart([0.0], [0.0], -1, [], [])
  }

  function Max(a: int, b: int): int
  {
    if a >= b then a else b
  }

  /** The boundaries setter: the assigned array is stored with runs of equal values collapsed. */
  function SetBoundaries(c: Chart, value: seq<real>): (r: Chart)
    requires |value| > 0
    ensures r.boundaries == Collapse(value)
    ensures r.selections == c.selections && r.selectionIndex == c.selectionIndex
    ensures r.listeners == c.listeners && r.calls == c.calls
  {
    c.(boundaries := Collapse(value))
  }

  /**
   * `onDataSetChanged`: the current boundaries padded to the common length, and
   * the boundaries of the adapter's values (none when there is no adapter)
   * padded with their last entry, which is 0 when there are no values.
   */
  function DataSetChange(c: Chart, adapter: Option<seq<real>>): (anim: Animation)
    ensures |anim.start| == |anim.end| == Max(|adapter.GetOr([])| + 1, |c.boundaries|)
    ensures forall i :: 0 <= i < |c.boundaries| ==> anim.start[i] == c.boundaries[i]
    ensures forall i :: |c.boundaries| <= i < |anim.start| ==>
      anim.start[i] == if |c.boundaries| == 0 then 0.0 else c.boundaries[|c.boundaries| - 1]
    ensures forall i :: 0 <= i <= |adapter.GetOr([])| ==> anim.end[i] == PartialSums(Normalize(adapter.GetOr([])))[i]
    ensures forall i :: |adapter.GetOr([])| <= i < |anim.end| ==> anim.end[i] == anim.end[|adapter.GetOr([])|]
    ensures anim.end[0] == 0.0
    ensures |adapter.GetOr([])| == 0 ==> forall i :: 0 <= i < |anim.end| ==> anim.end[i] == 0.0
    ensures Sum(adapter.GetOr([])) > 0.0 ==>
      forall i :: |adapter.GetOr([])| <= i < |anim.end| ==> anim.end[i] == 1.0
  {
    var values := adapter.GetOr([]);
    var size := Max(|values| + 1, |c.boundaries|);
    TargetPrefix(values, size);
    TargetPadding(values, size);
    TargetWithoutValues(values, size);
    TargetEndsInOnes(values, size);
    Animation(WithSize(c.boundaries, size, 0.0), WithSize(PartialSums(Normalize(values)), size, 0.0))
  }

  /**
   * The target of a data-set change: boundary `i` is the share of the total
   * that the first `i` values make up.
   */
  lemma DataSetTargetIsShare(c: Chart, values: seq<real>, i: nat)
    requires Sum(values) > 0.0 && i <= |values|
    ensures DataSetChange(c, Some(values)).end[i] == Sum(values[..i]) / Sum(values)
  {
    assert Some(values).GetOr([]) == values;
    BoundaryIsShare(values, i);
  }

  /** A zero value repeats its boundary in the target: its slice is empty. */
  lemma DataSetZeroValueRepeats(c: Chart, values: seq<real>, i: nat)
    requires Sum(values) > 0.0 && i < |values| && values[i] == 0.0
    ensures DataSetChange(c, Some(values)).end[i + 1] == DataSetChange(c, Some(values)).end[i]
  {
    assert Some(values).GetOr([]) == values;
    var n := Normalize(values);
    assert n[i] == values[i] / Sum(values);
    ZeroDiv(Sum(values));
    assert PartialSums(n)[i + 1] == PartialSums(n)[i] + n[i];
  }

  /** The padded boundaries of `values` begin with the boundaries themselves, so they start at 0. */
  lemma TargetPrefix(values: seq<real>, size: nat)
    requires size >= |values| + 1
    ensures var t := WithSize(PartialSums(Normalize(values)), size, 0.0);
      (forall i :: 0 <= i <= |values| ==> t[i] == PartialSums(Normalize(values))[i]) && t[0] == 0.0
  {
    var p := PartialSums(Normalize(values));
    assert |p| == |values| + 1;
  }

  /** Without values the padded boundaries are all 0. */
  lemma TargetWithoutValues(values: seq<real>, size: nat)
    requires size >= |values| + 1
    ensures var t := WithSize(PartialSums(Normalize(values)), size, 0.0);
      |values| == 0 ==> forall i :: 0 <= i < size ==> t[i] == 0.0
  {
    if |values| == 0 {
      var p := PartialSums(Normalize(values));
      PaddedTail(p, size);
    }
  }

  /** For a positive sum the padded boundaries end in ones from the last value on. */
  lemma TargetEndsInOnes(values: seq<real>, size: nat)
    requires size >= |values| + 1
    ensures var t := WithSize(PartialSums(Normalize(values)), size, 0.0);
      Sum(values) > 0.0 ==> forall i :: |values| <= i < size ==> t[i] == 1.0
  {
    if Sum(values) > 0.0 {
      var p := PartialSums(Normalize(values));
      PaddedTail(p, size);
      BoundariesEndAtOne(values);
    }
  }

  /** Past the values, the padded boundaries repeat the last one, whatever the sum. */
  lemma TargetPadding(values: seq<real>, size: nat)
    requires size >= |values| + 1
    ensures var t := WithSize(PartialSums(Normalize(values)), size, 0.0);
      forall i :: |values| <= i < size ==> t[i] == t[|values|]
  {
    var p := PartialSums(Normalize(values));
    PaddedTail(p, size);
  }

  /** Padding a non-empty sequence repeats its last entry from that entry on. */
  lemma PaddedTail(p: seq<real>, size: nat)
    requires 0 < |p| <= size
    ensures WithSize(p, size, 0.0)[0] == p[0]
    ensures forall i :: |p| - 1 <= i < size ==> WithSize(p, size, 0.0)[i] == p[|p| - 1]
  {
  }

  /** A frame of the data-set animation, assigned through the collapsing setter. */
  function DataSetFrame(c: Chart, anim: Animation, fraction: real): (r: Chart)
    requires |anim.start| > 0 && |anim.end| > 0
    ensures r.boundaries == Collapse(Evaluate(fraction, anim.start, anim.end))
    ensures r.selections == c.selections && r.selectionIndex == c.selectionIndex
    ensures r.listeners == c.listeners && r.calls == c.calls
  {
    SetBoundaries(c, Evaluate(fraction, anim.start, anim.end))
  }

  /** New boundaries for non-negative values never decrease. */
  lemma DataSetTargetOrdered(c: Chart, values: seq<real>)
    requires AllNonNegative(values)
    ensures NonDecreasing(DataSetChange(c, Some(values)).end)
  {
    BoundariesOrdered(values);
    var size := Max(|values| + 1, |c.boundaries|);
    WithSizeNonDecreasing(PartialSums(Normalize(values)), size, 0.0);
  }

  /**
   * The first boundary stays 0: a data-set change whose current boundaries start
   * at 0 produces frames that start at 0, whichever chart they are applied to.
   */
  lemma FirstBoundaryStaysZero(c: Chart, adapter: Option<seq<real>>, current: Chart, fraction: real)
    requires |c.boundaries| > 0 && c.boundaries[0] == 0.0
    ensures DataSetFrame(current, DataSetChange(c, adapter), fraction).boundaries[0] == 0.0
  {
    var anim := DataSetChange(c, adapter);
    assert Evaluate(fraction, anim.start, anim.end)[0] == Lerp(fraction, 0.0, 0.0);
  }

  /**
   * Between ordered boundaries and the boundaries of non-negative values, every
   * frame is strictly increasing: no slice has a negative or zero sweep.
   */
  lemma DataSetFramesStrictlyIncreasing(c: Chart, values: seq<real>, current: Chart, fraction: real)
    requires NonDecreasing(c.boundaries) && AllNonNegative(values)
    requires 0.0 <= fraction <= 1.0
    ensures StrictlyIncreasing(DataSetFrame(current, DataSetChange(c, Some(values)), fraction).boundaries)
  {
    var anim := DataSetChange(c, Some(values));
    WithSizeNonDecreasing(c.boundaries, |anim.start|, 0.0);
    DataSetTargetOrdered(c, values);
    EvaluateKeepsOrder(fraction, anim.start, anim.end);
    CollapseOrderedIsStrict(Evaluate(fraction, anim.start, anim.end));
  }

  /** The last frame stores the collapsed target. */
  lemma LastDataSetFrame(current: Chart, anim: Animation)
    requires |anim.start| == |anim.end| > 0
    ensures DataSetFrame(current, anim, 1.0).boundaries == Collapse(anim.end)
  {
    EvaluateEndpoints(anim.start, anim.end);
  }

  /**
   * A zero value removes its slice: on a fresh chart, values `[1, 0, 1]` end as
   * the boundaries `[0, 0.5, 1]`, two slices instead of three.
   */
  lemma ZeroValueRemovesSlice()
    ensures DataSetChange(Initial(), Some([1.0, 0.0, 1.0])).end == [0.0, 0.5, 0.5, 1.0]
    ensures DataSetFrame(Initial(), DataSetChange(Initial(), Some([1.0, 0.0, 1.0])), 1.0).boundaries == [0.0, 0.5, 1.0]
  {
    var anim := DataSetChange(Initial(), Some([1.0, 0.0, 1.0]));
    ZeroValueTarget();
    assert anim.end == [0.0, 0.5, 0.5, 1.0];
    LastDataSetFrame(Initial(), anim);
    CollapseRemovesZeroSlice();
  }

  lemma ZeroValueTarget()
    ensures PartialSums(Normalize([1.0, 0.0, 1.0])) == [0.0, 0.5, 0.5, 1.0]
  {
    var values := [1.0, 0.0, 1.0];
    SumOneZeroOne();
    var n := Normalize(values);
    assert n[0] == 0.5 && n[1] == 0.0 && n[2] == 0.5 by {
      assert n[0] == 1.0 / 2.0 && n[1] == 0.0 / 2.0 && n[2] == 1.0 / 2.0;
    }
    var p := PartialSums(n);
    assert p[1] == 0.5 by { assert p[1] == p[0] + n[0]; }
    assert p[2] == 0.5 by { assert p[2] == p[1] + n[1]; }
    assert p[3] == 1.0 by { assert p[3] == p[2] + n[2]; }
    assert |p| == 4 && p[0] == 0.0;
  }

  /** The total of the example values `[1, 0, 1]`. */
  lemma SumOneZeroOne()
    ensures Sum([1.0, 0.0, 1.0]) == 2.0
  {
    var values := [1.0, 0.0, 1.0];
    assert values[..2] == [1.0, 0.0];
    assert [1.0, 0.0][..1] == [1.0];
    assert [1.0][..0] == [];
  }

  /** The selection target: 1 at `index`, 0 at every other of `n` positions. */
  function OneHot(n: nat, index: int): (r: seq<real>)
    ensures |r| == n
    ensures forall k :: 0 <= k < n ==> (r[k] == 1.0 <==> k == index)
    ensures forall k :: 0 <= k < n ==> (r[k] == 0.0 <==> k != index)
  {
    seq(n, k => if k == index then 1.0 else 0.0)
  }

  /** The target's entries add up to one exactly when the index is in range. */
  lemma {:induction false} OneHotSum(n: nat, index: int)
    ensures Sum(OneHot(n, index)) == if 0 <= index < n then 1.0 else 0.0
  {
    if n > 0 {
      OneHotSum(n - 1, index);
      assert OneHot(n, index)[..n - 1] == OneHot(n - 1, index);
    }
  }

  /**
   * `onDataPointSelected`: the current selections padded to one entry per
   * slice, and the one-hot target for the new index (all zeros when the index
   * names no slice, as after `clearSelection`).
   */
  function SelectionAnimation(boundaries: seq<real>, selections: seq<real>, newIndex: int): (anim: Animation)
    requires |boundaries| > 0
    ensures |anim.start| == |anim.end| == |boundaries| - 1
    ensures forall k :: 0 <= k < |anim.start| && k < |selections| ==> anim.start[k] == selections[k]
    ensures forall k :: |selections| <= k < |anim.start| ==> anim.start[k] == if |selections| == 0 then 0.0 else selections[|selections| - 1]
    ensures forall k :: 0 <= k < |anim.end| ==> (anim.end[k] == 1.0 <==> k == newIndex)
    ensures forall k :: 0 <= k < |anim.end| && k != newIndex ==> anim.end[k] == 0.0
    ensures Sum(anim.end) == if 0 <= newIndex < |boundaries| - 1 then 1.0 else 0.0
  {
    var n := |boundaries| - 1;
    OneHotSum(n, newIndex);
    Animation(WithSize(selections, n, 0.0), OneHot(n, newIndex))
  }

  /** The listener calls for one assignment: every listener, in order, with the same pair. */
  function Notify(listeners: seq<Listener>, oldIndex: int, newIndex: int): (r: seq<SelectionCall>)
    ensures |r| == |listeners|
    ensures forall k :: 0 <= k < |r| ==> r[k] == SelectionCall(listeners[k], oldIndex, newIndex)
  {
    seq(|listeners|, k requires 0 <= k < |listeners| => SelectionCall(listeners[k], oldIndex, newIndex))
  }

  /**
   * Assigning `selectionIndex`: the index is stored, the selection animation
   * starts, and every listener is told (old, new) synchronously, even when the
   * index did not change.
   */
  function SetSelectionIndex(c: Chart, value: int): (r: Transition)
    requires |c.boundaries| > 0
    ensures r.chart.selectionIndex == value
    ensures r.chart.boundaries == c.boundaries && r.chart.selections == c.selections
    ensures r.chart.listeners == c.listeners
    ensures |r.chart.calls| == |c.calls| + |c.listeners|
    ensures r.chart.calls[..|c.calls|] == c.calls
    ensures forall k :: 0 <= k < |c.listeners| ==>
      r.chart.calls[|c.calls| + k] == SelectionCall(c.listeners[k], c.selectionIndex, value)
    ensures r.animation == SelectionAnimation(c.boundaries, c.selections, value)
  {
    Transition(
      c.(selectionIndex := value, calls := c.calls + Notify(c.listeners, c.selectionIndex, value)),
      SelectionAnimation(c.boundaries, c.selections, value))
  }

  /** A frame of the selection animation. */
  function SelectionFrame(c: Chart, anim: Animation, fraction: real): (r: Chart)
    ensures r.selections == Evaluate(fraction, anim.start, anim.end)
    ensures |r.selections| == if |anim.start| <= |anim.end| then |anim.start| else |anim.end|
    ensures r.boundaries == c.boundaries && r.selectionIndex == c.selectionIndex
    ensures r.listeners == c.listeners && r.calls == c.calls
  {
    c.(selections := Evaluate(fraction, anim.start, anim.end))
  }

  /** Selection amounts in [0, 1] stay in [0, 1] through every frame of a selection change. */
  lemma SelectionFramesInUnitRange(c: Chart, value: int, current: Chart, fraction: real)
    requires |c.boundaries| > 0
    requires forall k :: 0 <= k < |c.selections| ==> 0.0 <= c.selections[k] <= 1.0
    requires 0.0 <= fraction <= 1.0
    ensures forall k :: 0 <= k < |SelectionFrame(current, SetSelectionIndex(c, value).animation, fraction).selections| ==>
      0.0 <= SelectionFrame(current, SetSelectionIndex(c, value).animation, fraction).selections[k] <= 1.0
  {
    var anim := SetSelectionIndex(c, value).animation;
    EvaluateBetween(fraction, anim.start, anim.end);
    forall k | 0 <= k < |anim.start| ensures 0.0 <= anim.start[k] <= 1.0 {
      if |c.selections| == 0 {
        assert anim.start[k] == 0.0;
      }
    }
  }

  /** `clearSelection`: assigns -1, so the target deselects every slice and listeners hear (old, -1). */
  function ClearSelection(c: Chart): (r: Transition)
    requires |c.boundaries| > 0
    ensures r.chart.selectionIndex == -1
    ensures forall k :: 0 <= k < |r.animation.end| ==> r.animation.end[k] == 0.0
    ensures |r.chart.calls| == |c.calls| + |c.listeners|
    ensures forall k :: 0 <= k < |c.listeners| ==>
      r.chart.calls[|c.calls| + k] == SelectionCall(c.listeners[k], c.selectionIndex, -1)
  {
    SetSelectionIndex(c, -1)
  }

  /** Every assignment notifies, so assigning the current index again repeats the calls. */
  lemma SameIndexStillNotifies(c: Chart)
    requires |c.boundaries| > 0 && |c.listeners| > 0
    ensures |SetSelectionIndex(c, c.selectionIndex).chart.calls| > |c.calls|
    ensures SetSelectionIndex(c, c.selectionIndex).chart.calls[|c.calls|] ==
      SelectionCall(c.listeners[0], c.selectionIndex, c.selectionIndex)
  {
  }

  /** A touch at `angle` degrees: the hit test's index is assigned to `selectionIndex`. */
  function Touch(c: Chart, angle: real, rotationAngle: real): (r: Transition)
    requires |c.boundaries| > 0
    ensures r.chart.selectionIndex == HitIndex(c.boundaries, angle, rotationAngle)
    ensures r.chart.calls == c.calls + Notify(c.listeners, c.selectionIndex, HitIndex(c.boundaries, angle, rotationAngle))
    ensures r.animation == SelectionAnimation(c.boundaries, c.selections, HitIndex(c.boundaries, angle, rotationAngle))
    ensures r.chart.boundaries == c.boundaries && r.chart.selections == c.selections && r.chart.listeners == c.listeners
    ensures |r.chart.calls| == |c.calls| + |c.listeners|
  {
    SetSelectionIndex(c, HitIndex(c.boundaries, angle, rotationAngle))
  }

  /**
   * On boundaries from 0 to 1, a touch selects exactly one drawn slice: the
   * one containing the touched angle, and the selection target sums to one.
   */
  lemma TouchSelectsOneSlice(c: Chart, angle: real, rotationAngle: real)
    requires |c.boundaries| > 0 && c.boundaries[0] == 0.0 && c.boundaries[|c.boundaries| - 1] == 1.0
    ensures 0 <= Touch(c, angle, rotationAngle).chart.selectionIndex < |c.boundaries| - 1
    ensures Touch(c, angle, rotationAngle).animation.end[Touch(c, angle, rotationAngle).chart.selectionIndex] == 1.0
    ensures Sum(Touch(c, angle, rotationAngle).animation.end) == 1.0
  {
    HitIndexInDrawnSlice(c.boundaries, angle, rotationAngle);
  }

  /** `addOnSelectionChangedListener`: appends, so a listener added twice is called twice. */
  function AddListener(c: Chart, listener: Listener): (r: Chart)
    ensures r.listeners == c.listeners + [listener]
    ensures r.boundaries == c.boundaries && r.selections == c.selections
    ensures r.selectionIndex == c.selectionIndex && r.calls == c.calls
  {
    c.(listeners := c.listeners + [listener])
  }

  /** The position of the first occurrence of `x`. */
  function FirstIndex(xs: seq<Listener>, x: Listener): (k: nat)
    requires x in xs
    ensures k < |xs| && xs[k] == x && x !in xs[..k]
  {
    if xs[0] == x then 0
    else
      var k := 1 + FirstIndex(xs[1..], x);
      assert xs[..k] == [xs[0]] + xs[1..][..k - 1];
      k
  }

  /**
   * `MutableList.remove`: drops the first occurrence, if any, and keeps the
   * other elements in their order.
   */
  function RemoveFirst(xs: seq<Listener>, x: Listener): (r: seq<Listener>)
    ensures x !in xs ==> r == xs
    ensures x in xs ==> r == xs[..FirstIndex(xs, x)] + xs[FirstIndex(xs, x) + 1..]
    ensures x in xs ==> |r| == |xs| - 1
    ensures multiset(r) == multiset(xs) - multiset{x}
  {
    if |xs| == 0 then []
    else if xs[0] == x then
      assert xs == [xs[0]] + xs[1..];
      assert FirstIndex(xs, x) == 0;
      xs[1..]
    else
      var tail := RemoveFirst(xs[1..], x);
      ConsMultiset(xs, x, tail);
      if x in xs[1..] then
        SpliceCons(xs, x);
        [xs[0]] + tail
      else
        ConsAbsent(xs, x);
        [xs[0]] + tail
  }

  /** A head that differs from `x` is kept outside the multiset difference. */
  lemma ConsMultiset(xs: seq<Listener>, x: Listener, tail: seq<Listener>)
    requires |xs| > 0 && xs[0] != x
    requires multiset(tail) == multiset(xs[1..]) - multiset{x}
    ensures multiset([xs[0]] + tail) == multiset(xs) - multiset{x}
  {
    assert xs == [xs[0]] + xs[1..];
  }

  /** `x` is in neither the head nor the rest, so it is not in the list. */
  lemma ConsAbsent(xs: seq<Listener>, x: Listener)
    requires |xs| > 0 && xs[0] != x && x !in xs[1..]
    ensures x !in xs
    ensures xs == [xs[0]] + xs[1..]
  {
    assert xs == [xs[0]] + xs[1..];
  }

  /** Where `x` first occurs after a different head, and what cutting it out leaves. */
  lemma SpliceCons(xs: seq<Listener>, x: Listener)
    requires |xs| > 0 && xs[0] != x && x in xs[1..]
    ensures x in xs
    ensures FirstIndex(xs, x) == FirstIndex(xs[1..], x) + 1
    ensures [xs[0]] + (xs[1..][..FirstIndex(xs[1..], x)] + xs[1..][FirstIndex(xs[1..], x) + 1..])
         == xs[..FirstIndex(xs, x)] + xs[FirstIndex(xs, x) + 1..]
  {
    var k := FirstIndex(xs[1..], x);
    assert xs[..k + 1] == [xs[0]] + xs[1..][..k];
    assert xs[k + 2..] == xs[1..][k + 1..];
  }

  /**
   * `removeOnSelectionChangedListener`: the first registration of the listener
   * goes, the others keep their order, and nothing else changes.
   */
  function RemoveListener(c: Chart, listener: Listener): (r: Chart)
    ensures listener !in c.listeners ==> r.listeners == c.listeners
    ensures listener in c.listeners ==> var k := FirstIndex(c.listeners, listener);
      r.listeners == c.listeners[..k] + c.listeners[k + 1..]
    ensures multiset(r.listeners) == multiset(c.listeners) - multiset{listener}
    ensures r.boundaries == c.boundaries && r.selections == c.selections
    ensures r.selectionIndex == c.selectionIndex && r.calls == c.calls
  {
    c.(listeners := RemoveFirst(c.listeners, listener))
  }

  /** Only the first of two registrations is removed: `[a, b, a]` becomes `[b, a]`. */
  lemma RemoveListenerExample(a: Listener, b: Listener)
    requires a != b
    ensures RemoveFirst([a, b, a], a) == [b, a]
    ensures RemoveFirst([b, a, a], a) == [b, a]
  {
    assert [a, b, a][1..] == [b, a];
    assert [b, a, a][1..] == [a, a];
    assert [a, a][1..] == [a];
    assert RemoveFirst([a, a], a) == [a];
  }

  /** Removing a listener that was just added restores the listener list. */
  lemma {:induction false} RemoveAfterAdd(xs: seq<Listener>, x: Listener)
    requires x !in xs
    ensures RemoveFirst(xs + [x], x) == xs
  {
    if |xs| > 0 {
      assert (xs + [x])[1..] == xs[1..] + [x];
      RemoveAfterAdd(xs[1..], x);
    }
  }

  /** The arguments of one slice's `draw` call; `label` is the adapter index whose label is passed, if any. */
  datatype SliceDraw = SliceDraw(index: nat, startAngle: real, endAngle: real, selection: real, labelIndex: Option<nat>)

  /**
   * `drawDataPoints`: the boundaries are mapped to angles and paired with their
   * successors; a missing selection entry reads as 0, and a label is requested
   * only when an adapter is set and has an entry at that index.
   */
  function DrawSlices(boundaries: seq<real>, selections: seq<real>, rotationAngle: real, adapterSize: Option<nat>): (r: seq<SliceDraw>)
    ensures |r| == if |boundaries| == 0 then 0 else |boundaries| - 1
    ensures forall i :: 0 <= i < |r| ==> r[i].index == i
    ensures forall i :: 0 <= i < |r| ==> r[i].startAngle == rotationAngle + FULL_ANGLE * boundaries[i]
    ensures forall i :: 0 <= i < |r| ==> r[i].endAngle == rotationAngle + FULL_ANGLE * boundaries[i + 1]
    ensures forall i :: 0 <= i < |r| ==> r[i].selection == if i < |selections| then selections[i] else 0.0
    ensures forall i :: 0 <= i < |r| ==> (r[i].labelIndex.Some? <==> adapterSize.Some? && adapterSize.value > i)
    ensures forall i :: 0 <= i < |r| && r[i].labelIndex.Some? ==> r[i].labelIndex.value == i
  {
    if |boundaries| == 0 then []
    else
      seq(|boundaries| - 1, i requires 0 <= i < |boundaries| - 1 =>
        SliceDraw(
          i,
          rotationAngle + FULL_ANGLE * boundaries[i],
          rotationAngle + FULL_ANGLE * boundaries[i + 1],
          if i < |selections| then selections[i] else 0.0,
          if adapterSize.Some? && adapterSize.value > i then Some(i) else None))
  }

  /** Each slice ends where the next one starts. */
  ghost predicate Contiguous(slices: seq<SliceDraw>)
  {
    forall i, j :: 0 <= i < j < |slices| && j == i + 1 ==> slices[i].endAngle == slices[j].startAngle
  }

  /** The slices of any boundary array are contiguous. */
  lemma SlicesAreContiguous(boundaries: seq<real>, selections: seq<real>, rotationAngle: real, adapterSize: Option<nat>)
    ensures Contiguous(DrawSlices(boundaries, selections, rotationAngle, adapterSize))
  {
  }

  /** The sweep of every slice, in order. */
  function Sweeps(slices: seq<SliceDraw>): (r: seq<real>)
    ensures |r| == |slices|
    ensures forall i :: 0 <= i < |r| ==> r[i] == slices[i].endAngle - slices[i].startAngle
  {
    seq(|slices|, i requires 0 <= i < |slices| => slices[i].endAngle - slices[i].startAngle)
  }

  /** The sweeps of contiguous slices add up to the angle from the first start to the last end. */
  lemma {:induction false} SweepsTelescope(slices: seq<SliceDraw>)
    requires |slices| > 0 && Contiguous(slices)
    ensures Sum(Sweeps(slices)) == slices[|slices| - 1].endAngle - slices[0].startAngle
  {
    if |slices| > 1 {
      var init := slices[..|slices| - 1];
      assert Contiguous(init);
      SweepsTelescope(init);
      assert Sweeps(slices)[..|slices| - 1] == Sweeps(init);
      assert slices[|slices| - 2].endAngle == slices[|slices| - 1].startAngle;
    }
  }

  /** Boundaries from 0 to 1 give slices whose sweeps add up to a full turn. */
  lemma SlicesCoverFullTurn(boundaries: seq<real>, selections: seq<real>, rotationAngle: real, adapterSize: Option<nat>)
    requires |boundaries| > 0 && boundaries[0] == 0.0 && boundaries[|boundaries| - 1] == 1.0
    ensures Sum(Sweeps(DrawSlices(boundaries, selections, rotationAngle, adapterSize))) == FULL_ANGLE
  {
    SlicesAreContiguous(boundaries, selections, rotationAngle, adapterSize);
    SweepsTelescope(DrawSlices(boundaries, selections, rotationAngle, adapterSize));
  }

  /**
   * After a zero value has been collapsed away, labels are still requested by
   * slice index: the second slice of `[0, 0.5, 1]`, drawn for the third value,
   * asks for the zero value's label.
   */
  lemma CollapsedSliceShiftsLabels()
    ensures DrawSlices([0.0, 0.5, 1.0], [], 0.0, Some(3))[1].labelIndex == Some(1)
    ensures DrawSlices([0.0, 0.5, 1.0], [], 0.0, Some(3))[1].startAngle == 180.0
  {
  }

  /** The middle revision starts with index 0 selected rather than -1. */
  function MiddleInitial(): (c: Chart)
    ensures c.selectionIndex == 0 && c.boundaries == [0.0] && c.selections == [0.0]
  {
    Initial().(selectionIndex := 0)
  }

  /** The middle revision's setter: stores the index and starts the animation, with no listeners to call. */
  function MiddleSetSelectionIndex(c: Chart, value: int): (r: Transition)
    requires |c.boundaries| > 0
    ensures r.chart == c.(selectionIndex := value)
    ensures r.animation == SetSelectionIndex(c, value).animation
  {
    Transition(c.(selectionIndex := value), SelectionAnimation(c.boundaries, c.selections, value))
  }

  /** The middle revision's touch and `clearSelection` go through its setter. */
  function MiddleTouch(c: Chart, angle: real, rotationAngle: real): (r: Transition)
    requires |c.boundaries| > 0
    ensures r.chart.selectionIndex == HitIndex(c.boundaries, angle, rotationAngle)
    ensures r.chart.calls == c.calls
    ensures r.chart == c.(selectionIndex := HitIndex(c.boundaries, angle, rotationAngle))
    ensures r.animation == SelectionAnimation(c.boundaries, c.selections, HitIndex(c.boundaries, angle, rotationAngle))
    ensures r.animation == Touch(c, angle, rotationAngle).animation
  {
    MiddleSetSelectionIndex(c, HitIndex(c.boundaries, angle, rotationAngle))
  }

  function MiddleClearSelection(c: Chart): (r: Transition)
    requires |c.boundaries| > 0
    ensures r.chart.selectionIndex == -1 && r.chart.calls == c.calls
    ensures forall k :: 0 <= k < |r.animation.end| ==> r.animation.end[k] == 0.0
  {
    MiddleSetSelectionIndex(c, -1)
  }

  /**
   * The earliest revision stores no index: a touch (at `radians`, from `atan2`)
   * only starts the selection animation towards the hit slice. As written, the
   * hit test converts the radians with the swapped `common` conversion.
   */
  function EarliestTouch(c: Chart, radians: real, rotationAngle: real): (anim: Animation)
    requires |c.boundaries| > 0
    ensures |anim.start| == |anim.end| == |c.boundaries| - 1
    ensures forall k :: 0 <= k < |anim.start| && k < |c.selections| ==> anim.start[k] == c.selections[k]
    ensures forall k :: |c.selections| <= k < |anim.start| ==>
      anim.start[k] == if |c.selections| == 0 then 0.0 else c.selections[|c.selections| - 1]
    ensures forall k :: 0 <= k < |anim.end| ==>
      (anim.end[k] == 1.0 <==> k == EarliestHitIndexAsWritten(c.boundaries, radians, rotationAngle))
    ensures forall k :: 0 <= k < |anim.end| && k != EarliestHitIndexAsWritten(c.boundaries, radians, rotationAngle) ==> anim.end[k] == 0.0
  {
    SelectionAnimation(c.boundaries, c.selections, EarliestHitIndexAsWritten(c.boundaries, radians, rotationAngle))
  }

  /**
   * As written, the earliest touch at `radians` animates as a later revision's
   * touch at `DegToRad(radians)` degrees: the angle is scaled the wrong way.
   */
  lemma EarliestTouchMisreadsAngle(c: Chart, radians: real, rotationAngle: real)
    requires |c.boundaries| > 0
    ensures EarliestTouch(c, radians, rotationAngle) == Touch(c, DegToRad(radians), rotationAngle).animation
  {
  }

  /** The earliest touch with the intended radian-to-degree conversion. */
  function EarliestTouchCorrected(c: Chart, radians: real, rotationAngle: real): (anim: Animation)
    requires |c.boundaries| > 0
    ensures |anim.start| == |anim.end| == |c.boundaries| - 1
    ensures forall k :: 0 <= k < |anim.start| && k < |c.selections| ==> anim.start[k] == c.selections[k]
    ensures forall k :: |c.selections| <= k < |anim.start| ==>
      anim.start[k] == if |c.selections| == 0 then 0.0 else c.selections[|c.selections| - 1]
    ensures forall k :: 0 <= k < |anim.end| ==>
      (anim.end[k] == 1.0 <==> k == EarliestHitIndex(c.boundaries, radians, rotationAngle))
    ensures forall k :: 0 <= k < |anim.end| && k != EarliestHitIndex(c.boundaries, radians, rotationAngle) ==> anim.end[k] == 0.0
  {
    SelectionAnimation(c.boundaries, c.selections, EarliestHitIndex(c.boundaries, radians, rotationAngle))
  }

  /** Corrected, the earliest revision animates towards the slice the later ones select. */
  lemma EarliestTouchAgrees(c: Chart, degrees: real, rotationAngle: real)
    requires |c.boundaries| > 0
    ensures EarliestTouchCorrected(c, DegToRad(degrees), rotationAngle) == Touch(c, degrees, rotationAngle).animation
  {
    EarliestHitIndexAgrees(c.boundaries, degrees, rotationAngle);
  }

  /**
   * A pointer at π/2 radians on boundaries `[0, 0.25, 0.5, 1]`: as written the
   * animation heads for slice 0, corrected for slice 1.
   */
  lemma EarliestTouchExample(c: Chart)
    requires c.boundaries == [0.0, 0.25, 0.5, 1.0]
    ensures EarliestTouch(c, PI / 2.0, 0.0).end == [1.0, 0.0, 0.0]
    ensures EarliestTouchCorrected(c, PI / 2.0, 0.0).end == [0.0, 1.0, 0.0]
  {
    EarliestHitIndexMisreads();
  }
}

=== FILE: RealArith.dfy ===
/** Small facts about real multiplication that the other proofs cite. */
module RealArith {

  lemma MulNonNegative(x: real, y: real)
    requires x >= 0.0 && y >= 0.0
    ensures x * y >= 0.0
  {
  }

  lemma MulLeftMonotone(k: real, x: real, y: real)
    requires k >= 0.0 && x <= y
    ensures k * x <= k * y
  {
    MulNonNegative(k, y - x);
  }

  /** Division by a non-zero number distributes over a sum. */
  lemma DivAdd(a: real, b: real, t: real)
    requires t != 0.0
    ensures (a + b) / t == a / t + b / t
  {
  }

  /** Multiplying by `t` and dividing by it again cancels. */
  lemma MulDivCancel(a: real, t: real)
    requires t != 0.0
    ensures a * t / t == a
  {
  }

  lemma ZeroDiv(t: real)
    requires t != 0.0
    ensures 0.0 / t == 0.0
  {
  }
}

=== FILE: Rects.dfy ===
/**
 * The in-situ rectangle providers. Each provider owns one rectangle and every
 * call overwrites its four fields and hands that same instance back, so a
 * result stays valid only until the next call. The provider is modelled by
 * the value of its shared rectangle; a call returns the provider's new state.
 */
module Rects {
  import opened Numeric

  /** `RectF`: floating-point edges. */
  datatype RectF = RectF(left: real, top: real, right: real, bottom: real)

  /** `Rect`: integer edges. */
  datatype Rect = Rect(left: int, top: int, right: int, bottom: int)

  function CenterX(r: RectF): real
  {
    (r.left + r.right) / 2.0
  }

  function CenterY(r: RectF): real
  {
    (r.top + r.bottom) / 2.0
  }

  function Width(r: RectF): real
  {
    r.right - r.left
  }

  function Height(r: RectF): real
  {
    r.bottom - r.top
  }

  /** `InSituRectFProvider`: the shared `RectF` it returns from every call. */
  datatype RectFProvider = RectFProvider(value: RectF)

  /** `InSituRectProvider`: the shared `Rect` it returns from every call. */
  datatype RectProvider = RectProvider(value: Rect)

  /** `rectF(left, top, right, bottom)`: the shared rectangle takes the four edges. */
  function SetRectF(p: RectFProvider, left: real, top: real, right: real, bottom: real): (q: RectFProvider)
    ensures q.value.left == left && q.value.top == top
    ensures q.value.right == right && q.value.bottom == bottom
  {
    RectFProvider(RectF(left, top, right, bottom))
  }

  /** `rectF(rectF)`: a copy of `r` in the shared rectangle. */
  function CopyRectF(p: RectFProvider, r: RectF): (q: RectFProvider)
    ensures q.value == r
  {
    SetRectF(p, r.left, r.top, r.right, r.bottom)
  }

  /** `rectF(rect)`: the integer edges, converted exactly. */
  function RectFFromRect(p: RectFProvider, r: Rect): (q: RectFProvider)
    ensures q.value.left == r.left as real && q.value.top == r.top as real
    ensures q.value.right == r.right as real && q.value.bottom == r.bottom as real
  {
    SetRectF(p, r.left as real, r.top as real, r.right as real, r.bottom as real)
  }

  /** `ovalF(cx, cy, radius)`: the square of side `2 * radius` centred at `(cx, cy)`. */
  function OvalF(p: RectFProvider, cx: real, cy: real, radius: real): (q: RectFProvider)
    ensures CenterX(q.value) == cx && CenterY(q.value) == cy
    ensures Width(q.value) == 2.0 * radius && Height(q.value) == 2.0 * radius
  {
    SetRectF(p, cx - radius, cy - radius, cx + radius, cy + radius)
  }

  /** `rect(left, top, right, bottom)`: the shared rectangle takes the four edges. */
  function SetRect(p: RectProvider, left: int, top: int, right: int, bottom: int): (q: RectProvider)
    ensures q.value.left == left && q.value.top == top
    ensures q.value.right == right && q.value.bottom == bottom
  {
    RectProvider(Rect(left, top, right, bottom))
  }

  /** `rect(rectF)`: every edge rounded to the nearest integer, halves up. */
  function RectFromRectF(p: RectProvider, r: RectF): (q: RectProvider)
    ensures INT_MIN as real <= r.left <= INT_MAX as real ==> r.left - 0.5 < q.value.left as real <= r.left + 0.5
    ensures INT_MIN as real <= r.top <= INT_MAX as real ==> r.top - 0.5 < q.value.top as real <= r.top + 0.5
    ensures INT_MIN as real <= r.right <= INT_MAX as real ==> r.right - 0.5 < q.value.right as real <= r.right + 0.5
    ensures INT_MIN as real <= r.bottom <= INT_MAX as real ==> r.bottom - 0.5 < q.value.bottom as real <= r.bottom + 0.5
  {
    SetRect(p, RoundToInt(r.left), RoundToInt(r.top), RoundToInt(r.right), RoundToInt(r.bottom))
  }

  /** `rect(rect)`: a copy of `r` in the shared rectangle. */
  function CopyRect(p: RectProvider, r: Rect): (q: RectProvider)
    ensures q.value == r
  {
    SetRect(p, r.left, r.top, r.right, r.bottom)
  }

  /** `oval(cx, cy, radius)`: the square of side `2 * radius` centred at `(cx, cy)`. */
  function Oval(p: RectProvider, cx: int, cy: int, radius: int): (q: RectProvider)
    ensures q.value.left + q.value.right == 2 * cx && q.value.top + q.value.bottom == 2 * cy
    ensures q.value.right - q.value.left == 2 * radius && q.value.bottom - q.value.top == 2 * radius
  {
    SetRect(p, cx - radius, cy - radius, cx + radius, cy + radius)
  }

  /**
   * The instance is shared: what a call returns does not depend on anything
   * returned before, so an earlier result is overwritten by the next call.
   */
  lemma SharedInstanceOverwritten(p1: RectFProvider, p2: RectFProvider, a: RectF, b: RectF,
                                  q1: RectProvider, q2: RectProvider, c: Rect, d: Rect)
    ensures CopyRectF(CopyRectF(p1, a), b) == CopyRectF(p2, b)
    ensures a != b ==> CopyRectF(CopyRectF(p1, a), b).value != a
    ensures CopyRect(CopyRect(q1, c), d) == CopyRect(q2, d)
    ensures c != d ==> CopyRect(CopyRect(q1, c), d).value != c
  {
  }

  /**
   * Converting 32-bit integer edges to floats and rounding them back gives the
   * same rectangle.
   */
  lemma RectRoundTrip(p: RectProvider, pf: RectFProvider, r: Rect)
    requires IsInt32(r.left) && IsInt32(r.top) && IsInt32(r.right) && IsInt32(r.bottom)
    ensures RectFromRectF(p, RectFFromRect(pf, r).value).value == r
  {
    ConversionsKeepIntegers(r.left);
    ConversionsKeepIntegers(r.top);
    ConversionsKeepIntegers(r.right);
    ConversionsKeepIntegers(r.bottom);
  }

  /** A float oval with integer centre and radius rounds to the integer oval. */
  lemma OvalRoundTrip(p: RectProvider, pf: RectFProvider, cx: int, cy: int, radius: int)
    requires IsInt32(cx - radius) && IsInt32(cy - radius) && IsInt32(cx + radius) && IsInt32(cy + radius)
    ensures RectFromRectF(p, OvalF(pf, cx as real, cy as real, radius as real).value) == Oval(p, cx, cy, radius)
  {
    ConversionsKeepIntegers(cx - radius);
    ConversionsKeepIntegers(cy - radius);
    ConversionsKeepIntegers(cx + radius);
    ConversionsKeepIntegers(cy + radius);
  }

  /**
   * `Rect.inset(dx, dy)`: each edge moves inwards, so the centre stays where it
   * was and the width and height shrink by twice the inset.
   */
  function Inset(r: Rect, dx: int, dy: int): (s: Rect)
    ensures s.left + s.right == r.left + r.right && s.top + s.bottom == r.top + r.bottom
    ensures s.right - s.left == r.right - r.left - 2 * dx
    ensures s.bottom - s.top == r.bottom - r.top - 2 * dy
  {
    Rect(r.left + dx, r.top + dy, r.right - dx, r.bottom - dy)
  }

  /** An inset of zero leaves the rectangle as it was. */
  lemma InsetZero(r: Rect)
    ensures Inset(r, 0, 0) == r
  {
  }
}

=== FILE: SliceRenderers.dfy ===
/**
 * The slice renderers: what one call of `draw` computes for slice `index`
 * spanning `startAngle` to `endAngle` with selection fraction `selection` —
 * the paint colour, the shadow, the radii of the shape, the canvas
 * translation and, for the simple wedge, the label hand-off. Canvas, paint
 * and path calls are replaced by the numbers passed to them. `cos` and `sin`
 * stand for the platform's trigonometric functions, applied to radians.
 */
module SliceRenderers {
  import opened Options
  import opened Angles
  import opened Colors
  import opened DonutPath
  import opened Rects
  import opened Labels
  import opened RealArith
  import opened IntArith

  /** `LAYER_TYPE_SOFTWARE` or `LAYER_TYPE_HARDWARE`. */
  datatype LayerType = Software | Hardware

  /** The paint's shadow layer: cleared, or set with blur radius, offset and colour. */
  datatype Shadow = NoShadow | ShadowLayer(radius: real, dx: real, dy: real, color: Color)

  /** The settings every renderer has: palettes, shadow colour and the selected slice's elevation. */
  datatype Style = Style(colors: seq<Color>, selectedColors: seq<Color>, shadowColor: Color, selectedElevation: real)

  /** Cyan slices turning blue when selected, a black shadow and an elevation of 4. */
  const DefaultStyle: Style := Style([CYAN], [BLUE], BLACK, 4.0)

  /** `onAttachedToView`: shadows need a software layer, so elevation selects it. */
  function LayerTypeFor(style: Style): (t: LayerType)
    ensures t == Software <==> style.selectedElevation > 0.0
  {
    if style.selectedElevation > 0.0 then Software else Hardware
  }

  /** The default elevation draws shadows and so attaches a software layer. */
  lemma DefaultLayerIsSoftware()
    ensures LayerTypeFor(DefaultStyle) == Software
  {
  }

  /**
   * `index % colors.size`: the palette repeats. An empty palette makes the
   * remainder throw, which is `None` here.
   */
  function ColorIndex(index: nat, count: nat): (r: Option<nat>)
    ensures r.None? <==> count == 0
    ensures r.Some? ==> r.value < count
    ensures index < count ==> r == Some(index)
  {
    if count == 0 then None else Some(index % count)
  }

  /** Slices a whole palette apart get the same colour. */
  lemma ColorIndexPeriodic(index: nat, count: nat)
    requires count > 0
    ensures ColorIndex(index + count, count) == ColorIndex(index, count)
  {
    ModAddDivisor(index, count);
  }

  /**
   * The paint colour: the palette colour mixed towards the selected palette's
   * colour at the same index by `selection`. `None` where the source throws:
   * an empty palette, or a selected palette shorter than the index used.
   */
  function SliceColor(style: Style, index: nat, selection: real): (r: Option<Argb>)
    ensures r.Some? <==> |style.colors| > 0 && index % |style.colors| < |style.selectedColors|
    ensures r.Some? && selection == 0.0 ==> r.value == style.colors[index % |style.colors|]
    ensures r.Some? && selection == 1.0 ==> r.value == style.selectedColors[index % |style.colors|]
    ensures r.Some? && 0.0 <= selection <= 1.0 ==> IsColor(r.value)
  {
    match ColorIndex(index, |style.colors|)
    case None => None
    case Some(i) =>
      if i < |style.selectedColors| then
        if 0.0 <= selection <= 1.0 then
          MixColorsIsColor(style.colors[i], style.selectedColors[i], selection);
          Some(MixColors(style.colors[i], style.selectedColors[i], selection))
        else
          Some(MixColors(style.colors[i], style.selectedColors[i], selection))
      else None
  }

  /** With the default palettes every slice is cyan when idle and blue when selected. */
  lemma DefaultColors(index: nat)
    ensures SliceColor(DefaultStyle, index, 0.0) == Some(CYAN)
    ensures SliceColor(DefaultStyle, index, 1.0) == Some(BLUE)
  {
  }

  /** The selection threshold above which a shadow is drawn. */
  const SHADOW_THRESHOLD: real := 0.01

  /**
   * The shadow of a slice: present exactly when the selection exceeds 1%, cast
   * straight down, with blur and drop both `selection * selectedElevation`.
   */
  function ShadowFor(style: Style, selection: real): (sh: Shadow)
    ensures sh.ShadowLayer? <==> selection > SHADOW_THRESHOLD
    ensures sh.ShadowLayer? ==> sh.dx == 0.0 && sh.dy == sh.radius && sh.color == style.shadowColor
    ensures sh.ShadowLayer? ==> sh.radius == selection * style.selectedElevation
  {
    if selection > SHADOW_THRESHOLD then
      ShadowLayer(selection * style.selectedElevation, 0.0, selection * style.selectedElevation, style.shadowColor)
    else
      NoShadow
  }

  /** The more a slice is selected, the longer its shadow, for a non-negative elevation. */
  lemma ShadowGrows(style: Style, s1: real, s2: real)
    requires style.selectedElevation >= 0.0
    requires SHADOW_THRESHOLD < s1 <= s2
    ensures ShadowFor(style, s1).radius <= ShadowFor(style, s2).radius
  {
    MulNonNegative(s2 - s1, style.selectedElevation);
  }

  /** `afterDraw`: whatever shadow the last slice set, the paint leaves without one. */
  function AfterDraw(paint: Shadow): (sh: Shadow)
    ensures sh.NoShadow?
  {
    NoShadow
  }

  /**
   * The outer radius: the chart's radius less the room reserved for the
   * selected slice's shift and its shadow.
   */
  function OuterRadius(radius: real, selectedShift: real, selectedElevation: real): (r: real)
    ensures r + selectedShift + selectedElevation == radius
  {
    radius - selectedShift - selectedElevation
  }

  /**
   * The reserve suffices: a slice at the outer radius, shifted by
   * `selection * selectedShift` and casting a shadow `selection * selectedElevation`
   * long, stays within the chart's radius.
   */
  lemma SelectedSliceStaysInside(radius: real, selectedShift: real, selectedElevation: real, selection: real)
    requires selectedShift >= 0.0 && selectedElevation >= 0.0
    requires 0.0 <= selection <= 1.0
    ensures OuterRadius(radius, selectedShift, selectedElevation) + selection * selectedShift + selection * selectedElevation <= radius
  {
    MulNonNegative(1.0 - selection, selectedShift);
    MulNonNegative(1.0 - selection, selectedElevation);
  }

  /** The slice's bisector, halfway between its two edges. */
  function Bisector(startAngle: real, endAngle: real): (m: real)
    ensures m - startAngle == endAngle - m
  {
    (startAngle + endAngle) / 2.0
  }

  /** `translateRadial`: a translation by `distance` in the direction `angle` degrees. */
  function RadialOffset(distance: real, angle: real, cos: real -> real, sin: real -> real): (o: Offset)
    ensures distance == 0.0 ==> o == Offset(0.0, 0.0)
  {
    Offset(distance * cos(DegToRad(angle)), distance * sin(DegToRad(angle)))
  }

  /** Where cosine and sine lie on the unit circle, the translation is `distance` long. */
  lemma RadialOffsetLength(distance: real, angle: real, cos: real -> real, sin: real -> real)
    requires cos(DegToRad(angle)) * cos(DegToRad(angle)) + sin(DegToRad(angle)) * sin(DegToRad(angle)) == 1.0
    ensures var o := RadialOffset(distance, angle, cos, sin);
      o.dx * o.dx + o.dy * o.dy == distance * distance
  {
    var c := cos(DegToRad(angle));
    var s := sin(DegToRad(angle));
    calc {
      (distance * c) * (distance * c) + (distance * s) * (distance * s);
      distance * distance * (c * c + s * s);
    }
  }

  /**
   * `transform`: the selected slice moves outwards along its bisector, by
   * `selection` times the shift; an unselected slice stays put.
   */
  function Transform(selectedShift: real, startAngle: real, endAngle: real, selection: real,
                     cos: real -> real, sin: real -> real): (o: Offset)
    ensures selection == 0.0 ==> o == Offset(0.0, 0.0)
    ensures o == RadialOffset(selection * selectedShift, Bisector(startAngle, endAngle), cos, sin)
  {
    RadialOffset(selection * selectedShift, (startAngle + endAngle) / 2.0, cos, sin)
  }

  /** The donut settings: ring width, spacing between slices, and the selected slice's width. */
  datatype Donut = Donut(width: real, spacing: real, selectedWidth: real)

  /** The defaults: width 50, no spacing, and the selected width equal to the width. */
  function DefaultDonut(width: real := 50.0): (d: Donut)
    ensures d.selectedWidth == d.width && d.spacing == 0.0
  {
    Donut(width, 0.0, width)
  }

  /** The ring width blended by selection. */
  function BlendedWidth(donut: Donut, selection: real): real
  {
    (1.0 - selection) * donut.width + selection * donut.selectedWidth
  }

  /**
   * The ring thickness: the blended width, clamped to the outer radius so the
   * ring never reaches past the centre.
   */
  function Thickness(outerRadius: real, donut: Donut, selection: real): (t: real)
    ensures t <= outerRadius && t <= BlendedWidth(donut, selection)
    ensures t == outerRadius || t == BlendedWidth(donut, selection)
  {
    var width := (1.0 - selection) * donut.width + selection * donut.selectedWidth;
    if outerRadius <= width then outerRadius else width
  }

  /** Selection 0 uses the width and selection 1 the selected width, both clamped. */
  lemma ThicknessEndpoints(outerRadius: real, donut: Donut)
    ensures Thickness(outerRadius, donut, 0.0) == if outerRadius <= donut.width then outerRadius else donut.width
    ensures Thickness(outerRadius, donut, 1.0) == if outerRadius <= donut.selectedWidth then outerRadius else donut.selectedWidth
  {
  }

  /** With the default selected width the thickness does not depend on the selection. */
  lemma DefaultThicknessIgnoresSelection(outerRadius: real, width: real, selection: real)
    ensures Thickness(outerRadius, DefaultDonut(width), selection) == Thickness(outerRadius, DefaultDonut(width), 0.0)
  {
    assert BlendedWidth(DefaultDonut(width), selection) == width;
  }

  /** `addRingSector`: a ring sector of the given outer radius and thickness, shrunk by `inset` at each side. */
  datatype RingSector = RingSector(cx: real, cy: real, radius: real, startAngle: real, sweepAngle: real,
                                   thickness: real, inset: real)

  /** What one donut slice draws: paint colour, shadow, shape and the canvas translation it is drawn under. */
  datatype DonutDraw = DonutDraw(color: Argb, shadow: Shadow, sector: RingSector, translation: Offset)

  /**
   * The canonical donut renderer's `draw`: the common part of `BasePieChartUI`
   * with the ring sector of `generateSlicePath`. `None` where the colour lookup
   * throws.
   */
  function DrawDonut(style: Style, selectedShift: real, donut: Donut, cx: real, cy: real, radius: real,
                     index: nat, startAngle: real, endAngle: real, selection: real,
                     cos: real -> real, sin: real -> real): (r: Option<DonutDraw>)
    ensures r.Some? <==> SliceColor(style, index, selection).Some?
    ensures r.Some? ==> r.value.color == SliceColor(style, index, selection).value
    ensures r.Some? ==> r.value.shadow == ShadowFor(style, selection)
    ensures r.Some? ==> var sector := r.value.sector;
      sector.radius == OuterRadius(radius, selectedShift, style.selectedElevation) &&
      sector.startAngle == startAngle && sector.startAngle + sector.sweepAngle == endAngle &&
      sector.cx == cx && sector.cy == cy &&
      sector.thickness == Thickness(sector.radius, donut, selection) &&
      sector.thickness <= sector.radius && sector.inset == donut.spacing / 2.0
    ensures r.Some? ==> r.value.translation == Transform(selectedShift, startAngle, endAngle, selection, cos, sin)
  {
    match SliceColor(style, index, selection)
    case None => None
    case Some(color) =>
      var outerRadius := radius - selectedShift - style.selectedElevation;
      var sector := RingSector(cx, cy, outerRadius, startAngle, endAngle - startAngle,
                               Thickness(outerRadius, donut, selection), donut.spacing / 2.0);
      Some(DonutDraw(color, ShadowFor(style, selection), sector, Transform(selectedShift, startAngle, endAngle, selection, cos, sin)))
  }

  /**
   * The middle revision's inner radius: the outer radius less the blended
   * width, but never below 0.
   */
  function MiddleInnerRadius(outerRadius: real, donut: Donut, selection: real): (r: real)
    ensures r >= 0.0
    ensures r >= outerRadius - BlendedWidth(donut, selection)
    ensures r == 0.0 || r == outerRadius - BlendedWidth(donut, selection)
  {
    var inner := outerRadius - (1.0 - selection) * donut.width - selection * donut.selectedWidth;
    if inner >= 0.0 then inner else 0.0
  }

  /**
   * The middle revision clamps the inner radius where the canonical one clamps
   * the thickness; the ring thickness comes out the same for every input.
   */
  lemma MiddleThicknessAgrees(outerRadius: real, donut: Donut, selection: real)
    ensures outerRadius - MiddleInnerRadius(outerRadius, donut, selection) == Thickness(outerRadius, donut, selection)
  {
  }

  /**
   * The middle revision's donut `draw`, with the outer radius reduced by the
   * donut's own shift and the thickness taken as outer minus inner radius.
   */
  function MiddleDrawDonut(style: Style, selectedDonutShift: real, donut: Donut, cx: real, cy: real, radius: real,
                           index: nat, startAngle: real, endAngle: real, selection: real,
                           cos: real -> real, sin: real -> real): (r: Option<DonutDraw>)
    ensures r.Some? <==> SliceColor(style, index, selection).Some?
  {
    match SliceColor(style, index, selection)
    case None => None
    case Some(color) =>
      var middleAngle := (startAngle + endAngle) / 2.0;
      var outerRadius := radius - selectedDonutShift - style.selectedElevation;
      var innerRadius := MiddleInnerRadius(outerRadius, donut, selection);
      var sector := RingSector(cx, cy, outerRadius, startAngle, endAngle - startAngle,
                               outerRadius - innerRadius, donut.spacing / 2.0);
      Some(DonutDraw(color, ShadowFor(style, selection), sector,
                     RadialOffset(selection * selectedDonutShift, middleAngle, cos, sin)))
  }

  /** The middle and canonical donut renderers draw the same slice. */
  lemma MiddleDonutAgrees(style: Style, selectedDonutShift: real, donut: Donut, cx: real, cy: real, radius: real,
                          index: nat, startAngle: real, endAngle: real, selection: real,
                          cos: real -> real, sin: real -> real)
    ensures MiddleDrawDonut(style, selectedDonutShift, donut, cx, cy, radius, index, startAngle, endAngle, selection, cos, sin)
         == DrawDonut(style, selectedDonutShift, donut, cx, cy, radius, index, startAngle, endAngle, selection, cos, sin)
  {
    MiddleThicknessAgrees(radius - selectedDonutShift - style.selectedElevation, donut, selection);
  }

  /** What the earliest donut slice draws: the outline comes from `donutSlice`. */
  datatype EarliestDonutDraw = EarliestDonutDraw(color: Argb, shadow: Shadow, outline: Option<Slice>, translation: Offset)

  /**
   * The earliest donut renderer's `draw`: the same radii as the middle
   * revision, but the outline is built by `donutSlice`, which is handed the
   * whole `donutSpacing` as its padding. As written, `donutSlice` pads with
   * the swapped `common` conversion.
   */
  function EarliestDrawDonut(style: Style, selectedDonutShift: real, donut: Donut, p: RectFProvider,
                             cx: real, cy: real, radius: real, index: nat, startAngle: real, endAngle: real,
                             selection: real, cos: real -> real, sin: real -> real): (r: Option<EarliestDonutDraw>)
    ensures r.Some? <==> SliceColor(style, index, selection).Some?
    ensures r.Some? ==> var outerRadius := OuterRadius(radius, selectedDonutShift, style.selectedElevation);
      var innerRadius := MiddleInnerRadius(outerRadius, donut, selection);
      (r.value.outline.Some? <==> innerRadius != 0.0 && outerRadius != 0.0) &&
      r.value.outline == DonutSliceAsWritten(p, cx, cy, startAngle, endAngle, innerRadius, outerRadius, donut.spacing) &&
      (r.value.outline.Some? <==> innerRadius != 0.0 && outerRadius != 0.0) &&
      (r.value.outline.Some? ==> r.value.outline.value.outer.startAngle == startAngle + AnglePaddingAsWritten(donut.spacing, outerRadius))
    ensures r.Some? ==> r.value.color == SliceColor(style, index, selection).value && r.value.shadow == ShadowFor(style, selection)
    ensures r.Some? ==> r.value.translation == RadialOffset(selection * selectedDonutShift, (startAngle + endAngle) / 2.0, cos, sin)
  {
    EarliestDonutWith(style, selectedDonutShift, donut, radius, index, startAngle, endAngle, selection, cos, sin,
                      (innerRadius, outerRadius) => DonutSliceAsWritten(p, cx, cy, startAngle, endAngle, innerRadius, outerRadius, donut.spacing))
  }

  /** The earliest donut renderer's `draw` with the intended padding conversion. */
  function EarliestDrawDonutCorrected(style: Style, selectedDonutShift: real, donut: Donut, p: RectFProvider,
                                      cx: real, cy: real, radius: real, index: nat, startAngle: real, endAngle: real,
                                      selection: real, cos: real -> real, sin: real -> real): (r: Option<EarliestDonutDraw>)
    ensures r.Some? <==> SliceColor(style, index, selection).Some?
    ensures r.Some? ==> var outerRadius := OuterRadius(radius, selectedDonutShift, style.selectedElevation);
      var innerRadius := MiddleInnerRadius(outerRadius, donut, selection);
      r.value.outline == DonutSlice(p, cx, cy, startAngle, endAngle, innerRadius, outerRadius, donut.spacing)
    ensures r.Some? ==> r.value.color == SliceColor(style, index, selection).value && r.value.shadow == ShadowFor(style, selection)
    ensures r.Some? ==> r.value.translation == RadialOffset(selection * selectedDonutShift, (startAngle + endAngle) / 2.0, cos, sin)
  {
    EarliestDonutWith(style, selectedDonutShift, donut, radius, index, startAngle, endAngle, selection, cos, sin,
                      (innerRadius, outerRadius) => DonutSlice(p, cx, cy, startAngle, endAngle, innerRadius, outerRadius, donut.spacing))
  }

  /** The earliest `draw`, given the outline builder for an inner and outer radius. */
  function EarliestDonutWith(style: Style, selectedDonutShift: real, donut: Donut, radius: real, index: nat,
                             startAngle: real, endAngle: real, selection: real, cos: real -> real, sin: real -> real,
                             outline: (real, real) -> Option<Slice>): (r: Option<EarliestDonutDraw>)
    ensures r.Some? <==> SliceColor(style, index, selection).Some?
    ensures r.Some? ==> var outerRadius := OuterRadius(radius, selectedDonutShift, style.selectedElevation);
      r.value.outline == outline(MiddleInnerRadius(outerRadius, donut, selection), outerRadius) &&
      r.value.color == SliceColor(style, index, selection).value && r.value.shadow == ShadowFor(style, selection) &&
      r.value.translation == RadialOffset(selection * selectedDonutShift, (startAngle + endAngle) / 2.0, cos, sin)
  {
    match SliceColor(style, index, selection)
    case None => None
    case Some(color) =>
      var middleAngle := (startAngle + endAngle) / 2.0;
      var outerRadius := radius - selectedDonutShift - style.selectedElevation;
      var innerRadius := MiddleInnerRadius(outerRadius, donut, selection);
      Some(EarliestDonutDraw(color, ShadowFor(style, selection), outline(innerRadius, outerRadius),
                             RadialOffset(selection * selectedDonutShift, middleAngle, cos, sin)))
  }

  /** The as-written and the corrected earliest `draw` differ in the outline only. */
  lemma EarliestDonutDiffersInOutline(style: Style, selectedDonutShift: real, donut: Donut, p: RectFProvider,
                                      cx: real, cy: real, radius: real, index: nat, startAngle: real, endAngle: real,
                                      selection: real, cos: real -> real, sin: real -> real)
    ensures var a := EarliestDrawDonut(style, selectedDonutShift, donut, p, cx, cy, radius, index, startAngle, endAngle, selection, cos, sin);
      var b := EarliestDrawDonutCorrected(style, selectedDonutShift, donut, p, cx, cy, radius, index, startAngle, endAngle, selection, cos, sin);
      a.Some? == b.Some? && (a.Some? ==> a.value.(outline := b.value.outline) == b.value)
  {
  }

  /**
   * Corrected, each slice's outer arc is shortened at its start by an arc half
   * the spacing long, so two neighbours are a whole spacing apart.
   */
  lemma EarliestOuterGapIsHalfSpacing(style: Style, selectedDonutShift: real, donut: Donut, p: RectFProvider,
                                      cx: real, cy: real, radius: real, index: nat, startAngle: real, endAngle: real,
                                      selection: real, cos: real -> real, sin: real -> real)
    requires SliceColor(style, index, selection).Some?
    requires OuterRadius(radius, selectedDonutShift, style.selectedElevation) != 0.0
    requires MiddleInnerRadius(OuterRadius(radius, selectedDonutShift, style.selectedElevation), donut, selection) != 0.0
    ensures var d := EarliestDrawDonutCorrected(style, selectedDonutShift, donut, p, cx, cy, radius, index, startAngle, endAngle, selection, cos, sin).value;
      DegToRad(d.outline.value.outer.startAngle - startAngle) * OuterRadius(radius, selectedDonutShift, style.selectedElevation) == donut.spacing / 2.0
  {
    var outerRadius := OuterRadius(radius, selectedDonutShift, style.selectedElevation);
    var innerRadius := MiddleInnerRadius(outerRadius, donut, selection);
    var outline := DonutSlice(p, cx, cy, startAngle, endAngle, innerRadius, outerRadius, donut.spacing);
    var d := EarliestDrawDonutCorrected(style, selectedDonutShift, donut, p, cx, cy, radius, index, startAngle, endAngle, selection, cos, sin);
    assert d.Some? && d.value.outline == outline;
    assert outline.Some?;
  }

  /** `addCircleSector`: a wedge of the given radius, shrunk by `inset` at each side. */
  datatype CircleSector = CircleSector(cx: real, cy: real, radius: real, startAngle: real, sweepAngle: real, inset: real)

  /** The arguments of the label delegate's `draw`. */
  datatype LabelHandOff = LabelHandOff(cx: real, cy: real, radius: real, startAngle: real, endAngle: real, caption: Label)

  /** What one wedge draws: colour, shadow, shape, translation and the label hand-off, if any. */
  datatype WedgeDraw = WedgeDraw(color: Argb, shadow: Shadow, sector: CircleSector, translation: Offset,
                                 handOff: Option<LabelHandOff>)

  /**
   * The middle revision's simple wedge `draw`: the wedge reaches the outer
   * radius, is inset by half the slice spacing, and a non-null label is handed
   * to the delegate with that same outer radius, under the same translation.
   */
  function MiddleDrawWedge(style: Style, selectedSliceShift: real, sliceSpacing: real, cx: real, cy: real,
                           radius: real, index: nat, startAngle: real, endAngle: real, selection: real,
                           caption: Option<Label>, cos: real -> real, sin: real -> real): (r: Option<WedgeDraw>)
    ensures r.Some? <==> SliceColor(style, index, selection).Some?
    ensures r.Some? ==> r.value.color == SliceColor(style, index, selection).value && r.value.shadow == ShadowFor(style, selection)
    ensures r.Some? ==> r.value.sector.cx == cx && r.value.sector.cy == cy && r.value.sector.startAngle == startAngle
    ensures r.Some? ==> r.value.sector.radius == OuterRadius(radius, selectedSliceShift, style.selectedElevation)
    ensures r.Some? ==> r.value.sector.startAngle + r.value.sector.sweepAngle == endAngle
    ensures r.Some? ==> r.value.sector.inset == sliceSpacing / 2.0
    ensures r.Some? ==> (r.value.handOff.Some? <==> caption.Some?)
    ensures r.Some? && caption.Some? ==> r.value.handOff.value.radius == r.value.sector.radius && r.value.handOff.value.caption == caption.value
    ensures r.Some? && caption.Some? ==> var h := r.value.handOff.value;
      h.cx == cx && h.cy == cy && h.startAngle == startAngle && h.endAngle == endAngle
    ensures r.Some? ==> r.value.translation == Transform(selectedSliceShift, startAngle, endAngle, selection, cos, sin)
  {
    match SliceColor(style, index, selection)
    case None => None
    case Some(color) =>
      var middleAngle := (startAngle + endAngle) / 2.0;
      var outerRadius := radius - selectedSliceShift - style.selectedElevation;
      var sector := CircleSector(cx, cy, outerRadius, startAngle, endAngle - startAngle, sliceSpacing / 2.0);
      var handOff := match caption
        case Some(c) => Some(LabelHandOff(cx, cy, outerRadius, startAngle, endAngle, c))
        case None => None;
      Some(WedgeDraw(color, ShadowFor(style, selection), sector,
                     RadialOffset(selection * selectedSliceShift, middleAngle, cos, sin), handOff))
  }

  /** The delegate then draws the handed-off label with its own style. */
  function DrawHandOff(labelStyle: LabelStyle, w: WedgeDraw, cos: real -> real, sin: real -> real): (r: Option<TextDraw>)
    ensures w.handOff.None? ==> r.None?
    ensures w.handOff.Some? ==> r == DrawLabel(labelStyle, w.handOff.value.cx, w.handOff.value.cy, w.handOff.value.radius,
                                               w.handOff.value.startAngle, w.handOff.value.endAngle,
                                               Some(w.handOff.value.caption), w.translation, cos, sin)
  {
    match w.handOff
    case None => None
    case Some(h) => DrawLabel(labelStyle, h.cx, h.cy, h.radius, h.startAngle, h.endAngle, Some(h.caption), w.translation, cos, sin)
  }

  /**
   * A wedge's label at position 0 sits centred on the wedge's outer edge,
   * moved together with the wedge.
   */
  lemma WedgeLabelOnEdge(style: Style, selectedSliceShift: real, sliceSpacing: real, cx: real, cy: real,
                         radius: real, index: nat, startAngle: real, endAngle: real, selection: real,
                         caption: Label, labelStyle: LabelStyle, cos: real -> real, sin: real -> real)
    requires SliceColor(style, index, selection).Some?
    requires labelStyle.position == 0 && Visible(labelStyle, startAngle, endAngle, Some(caption))
    ensures var w := MiddleDrawWedge(style, selectedSliceShift, sliceSpacing, cx, cy, radius, index, startAngle, endAngle,
                                     selection, Some(caption), cos, sin).value;
      var t := DrawHandOff(labelStyle, w, cos, sin);
      var a := DegToRad((startAngle + endAngle) / 2.0);
      t.Some? && t.value.translation == w.translation &&
      BoxCenterX(t.value, caption) == cx + w.sector.radius * cos(a) &&
      BoxCenterY(t.value, caption) == cy + w.sector.radius * sin(a)
  {
    var w := MiddleDrawWedge(style, selectedSliceShift, sliceSpacing, cx, cy, radius, index, startAngle, endAngle,
                             selection, Some(caption), cos, sin).value;
    var h := w.handOff.value;
    assert h == LabelHandOff(cx, cy, w.sector.radius, startAngle, endAngle, caption);
    assert DrawHandOff(labelStyle, w, cos, sin)
        == DrawLabel(labelStyle, cx, cy, w.sector.radius, startAngle, endAngle, Some(caption), w.translation, cos, sin);
    CenteredOnEdge(labelStyle, cx, cy, w.sector.radius, startAngle, endAngle, caption, w.translation, cos, sin);
  }
}

=== FILE: TypedArrays.dfy ===
/**
 * Styled-attribute helpers: the attribute indices present in a typed array,
 * the first of several alternative attributes that has a value, and the
 * fallback rule for loading an interpolator. The typed array itself is
 * represented by the functions the helpers query.
 */
module TypedArrays {
  import opened Options

  /**
   * `indices`: `0 until length` when the array reports no index count,
   * otherwise `getIndex` applied to `0 until indexCount`, in order.
   */
  function Indices(indexCount: nat, length: nat, getIndex: int -> int): (r: seq<int>)
    ensures indexCount == 0 ==> |r| == length && forall i :: 0 <= i < |r| ==> r[i] == i
    ensures indexCount > 0 ==> |r| == indexCount && forall i :: 0 <= i < |r| ==> r[i] == getIndex(i)
  {
    if indexCount == 0 then seq(length, i => i)
    else seq(indexCount, i => getIndex(i))
  }

  /**
   * Without an index count every position of the array is listed exactly
   * once: the result holds each `x` with `0 <= x < length` and no other, and
   * no value twice.
   */
  lemma PlainIndicesAreRange(length: nat, getIndex: int -> int)
    ensures forall x :: x in Indices(0, length, getIndex) <==> 0 <= x < length
    ensures forall i, j :: 0 <= i < j < |Indices(0, length, getIndex)| ==>
      Indices(0, length, getIndex)[i] != Indices(0, length, getIndex)[j]
  {
    var r := Indices(0, length, getIndex);
    forall x | 0 <= x < length ensures x in r {
      assert r[x] == x;
    }
  }

  /** The two index sources of the unit tests: explicit indices 3 and 7, and a plain resource of length 2. */
  lemma IndicesExamples()
    ensures Indices(2, 5, i => if i == 0 then 3 else 7) == [3, 7]
    ensures Indices(0, 2, i => 9) == [0, 1]
  {
  }

  /**
   * The position of the first index that has a value, or `|indices|` when
   * none has: Kotlin's `find`, as a position.
   */
  function FirstWithValue(indices: seq<int>, hasValue: int -> bool): (k: nat)
    ensures k <= |indices|
    ensures forall j :: 0 <= j < k ==> !hasValue(indices[j])
    ensures k < |indices| ==> hasValue(indices[k])
  {
    if |indices| == 0 then 0
    else if hasValue(indices[0]) then 0
    else 1 + FirstWithValue(indices[1..], hasValue)
  }

  /**
   * `findIndexWithValue`: the first index that has a value, or else the last
   * index. With no indices at all `last()` throws, which is `None` here.
   */
  function FindIndexWithValue(indices: seq<int>, hasValue: int -> bool): (r: Option<int>)
    ensures r.None? <==> |indices| == 0
    ensures r.Some? ==> r.value in indices
    ensures forall k :: 0 <= k < |indices| && hasValue(indices[k]) && (forall j :: 0 <= j < k ==> !hasValue(indices[j])) ==>
      r == Some(indices[k])
    ensures (forall k :: 0 <= k < |indices| ==> !hasValue(indices[k])) && |indices| > 0 ==>
      r == Some(indices[|indices| - 1])
  {
    if |indices| == 0 then None
    else
      var k := FirstWithValue(indices, hasValue);
      if k < |indices| then Some(indices[k]) else Some(indices[|indices| - 1])
  }

  /** If any index has a value, the result is one that has. */
  lemma FoundIndexHasValue(indices: seq<int>, hasValue: int -> bool, k: nat)
    requires k < |indices| && hasValue(indices[k])
    ensures FindIndexWithValue(indices, hasValue).Some?
    ensures hasValue(FindIndexWithValue(indices, hasValue).value)
  {
  }

  /** The four cases of the unit tests, with indices 11, 12 and 13. */
  lemma FindIndexWithValueExamples()
    ensures FindIndexWithValue([11, 12, 13], i => true) == Some(11)
    ensures FindIndexWithValue([11, 12], i => i == 11) == Some(11)
    ensures FindIndexWithValue([11, 12], i => i == 12) == Some(12)
    ensures FindIndexWithValue([11, 12, 13], i => false) == Some(13)
  {
    assert FirstWithValue([11, 12], i => i == 12) == 1 by {
      assert [11, 12][1..] == [12];
    }
    assert FirstWithValue([11, 12, 13], i => false) == 3 by {
      assert [11, 12, 13][1..] == [12, 13];
      assert [12, 13][1..] == [13];
      assert [13][1..] == [];
    }
  }

  /**
   * `getInterpolator`. `resourceId` is what `getResourceId(index, 0)` returns,
   * `None` when it throws; `load` is `loadInterpolator`, `None` when it throws.
   * An id of 0 or any failure gives `defValue`.
   */
  function GetInterpolator<I>(resourceId: Option<int>, load: int -> Option<I>, defValue: I): (r: I)
    ensures resourceId.None? || resourceId == Some(0) ==> r == defValue
    ensures resourceId.Some? && resourceId.value != 0 && load(resourceId.value).None? ==> r == defValue
    ensures resourceId.Some? && resourceId.value != 0 && load(resourceId.value).Some? ==> r == load(resourceId.value).value
  {
    match resourceId
    case None => defValue
    case Some(id) =>
      if id == 0 then defValue
      else load(id).GetOr(defValue)
  }

  /** Anything other than the default was loaded from a non-zero resource id. */
  lemma InterpolatorIsDefaultOrLoaded<I>(resourceId: Option<int>, load: int -> Option<I>, defValue: I)
    ensures var r := GetInterpolator(resourceId, load, defValue);
      r == defValue || (resourceId.Some? && resourceId.value != 0 && load(resourceId.value) == Some(r))
  {
  }
}
